=== FILE: README.md ===
# Contact management: the validation and persistence contract

A contact-management web application: a React page collects a name, an
email, a phone number and an optional message, checks them in the browser,
and posts them to an Express service that validates them again against a
Mongoose schema and stores them. The page lists the stored contacts, newest
first, can reverse the list, and deletes contacts.

This Dafny project models the part of the system that decides what is
accepted and what is stored:

- `text.dfy` (`Text`): JavaScript's `\s` class, `String.prototype.trim` and
  lower-casing.
- `patterns.dfy` (`Patterns`): the regular expressions of both validators.
  The two email patterns are scans, each proved equal to a declarative
  description of the strings it matches. The name and phone patterns are
  written directly as their length and character-class conditions.
- `domain.dfy` (`Domain`): the four form fields and the stored record.
- `contact_schema.dfy` (`ContactSchema`): the schema of
  `backend/models/Contact.js`. Its setters trim every field and lower-case the
  email. Its validators report at most one error per path, `required` first,
  in declaration order.
- `contact_controllers.dfy` (`Controllers`): the five request handlers. Each
  is a transition over an abstract store: a map from ids to records, an id
  counter and a logical clock. A store fault is an input.
- `store_laws.dfy` (`StoreLaws`): the store invariant and the laws that
  relate handlers (create then get, delete then get, newest first).
- `client_validation.dfy` (`ClientValidation`): `validateField` and
  `validateForm` of `frontend/src/App.jsx`.
- `client_app.dfy` (`ClientApp`): the page state and its handlers for
  typing, submitting, deleting and toggling the sort.
- `agreement.dfy` (`Agreement`): how the two validators relate, and one
  round trip from the page to the service and back.
- `scenario_fields.dfy` (`ScenarioFields`) and `scenarios.dfy`
  (`Scenarios`): two worked requests.

The two validators are modelled separately because they differ. An email or
a phone number the page accepts is also accepted by the service. A name is
not: `" a"` passes the page's `/^[a-zA-Z\s]{2,50}$/` but trims to `"a"`, which
the schema rejects as too short. In the other direction, the service accepts
names with digits, addresses with a second `@`, and it caps the message
length, which the page never checks.

Three facts about the code shape the model:

- The service reports a failed validation as a list of message texts
  (`Object.values(error.errors).map(err => err.message)`), not as a map
  from field to message. The page's own errors are a map keyed by field.
- The two validators do not enforce the same rules (see above).
- A 500 response carries the store's `error.message` next to the short
  description.

## Model

| member | source | states |
|---|---|---|
| Text.IsSpace | frontend/src/App.jsx:27 | the characters of the `\s` class and of `trim`: ASCII tab, line feed, vertical tab, form feed, carriage return and space, plus the Unicode space separators, line and paragraph separators and the byte-order mark |
| Text.Trim | backend/models/Contact.js:8 | the trimmed value is no longer than the input and neither starts nor ends with whitespace |
| Text.Lower | backend/models/Contact.js:16 | the lower-cased value has the input's length and lower-cases it character by character |
| Text.TrimEmptyIff | frontend/src/App.jsx:61 | `!value.trim()` holds exactly when the value is empty or all whitespace |
| Text.TrimIsSlice | backend/models/Contact.js:8 | the `trim` setter keeps a contiguous slice and removes only whitespace from either end |
| Text.TrimIdempotent | backend/models/Contact.js:8 | trimming an already trimmed value changes nothing |
| Text.LowerProperties | backend/models/Contact.js:16 | the `lowercase` setter leaves no capital, changes only capitals, keeps whitespace where it was and is idempotent |
| Patterns.ClientName | frontend/src/App.jsx:27 | `/^[a-zA-Z\s]{2,50}$/`: 2 to 50 characters, each a letter or whitespace |
| Patterns.PhonePattern | backend/models/Contact.js:23 | `/^[6-9]\d{9}$/`, shared by both validators: ten ASCII digits, the first 6 to 9 |
| Patterns.ClientEmail | frontend/src/App.jsx:28 | `/^[^\s@]+@[^\s@]+\.[^\s@]+$/` as a scan: one `@` and a later `.` splitting the value into three non-empty runs free of whitespace and `@` |
| Patterns.ServerEmail | backend/models/Contact.js:17 | `/^\S+@\S+\.\S+$/` as a scan: no whitespace, an `@` after the first character and a `.` after it with characters between and after |
| Patterns.ClientEmailMeansShape | frontend/src/App.jsx:28 | the page's email pattern matches exactly `local@domain.tld`, each part non-empty and free of whitespace and `@` |
| Patterns.ServerEmailMeansShape | backend/models/Contact.js:17 | the schema's email pattern matches exactly non-empty whitespace-free parts around an `@` and a later `.`; either part may hold further `@`s |
| Patterns.ClientEmailIsServerEmail | frontend/src/App.jsx:28 | every address the page's pattern matches also matches the schema's pattern |
| ContactSchema.Validate | backend/models/Contact.js:4-29 | an accepted document is returned normalised and in a form the schema stores unchanged; a rejected one carries one to four failures |
| ContactSchema.ValidateAcceptsIff | backend/models/Contact.js:4-29 | validation succeeds exactly when the trimmed and lower-cased document meets the constraint table, and otherwise reports its violations |
| ContactSchema.NormalizeField | backend/models/Contact.js:15-16 | a setter never lengthens a value and yields the empty string exactly for blank or whitespace-only input |
| ContactSchema.Normalize | backend/models/Contact.js:8-27 | `new Contact(d)` applies each path's setter to its own field |
| ContactSchema.Violations | backend/models/Contact.js:4-29 | the validation failures of a normalised document: at most four, one per path at most (see `ContactSchema.ViolationsByPath`) |
| ContactSchema.NameError | backend/models/Contact.js:7-10 | the name path fails exactly when the trimmed name is outside 2 to 50 characters, and only with a name validator |
| ContactSchema.EmailError | backend/models/Contact.js:14-17 | the email path fails exactly when the normalised address does not match the schema's pattern, and only with an email validator |
| ContactSchema.PhoneError | backend/models/Contact.js:21-23 | the phone path fails exactly when the trimmed phone does not match the pattern, and only with a phone validator |
| ContactSchema.MessageError | backend/models/Contact.js:28 | the message path fails exactly when the trimmed message exceeds 500 characters |
| ContactSchema.ViolationsByPath | backend/models/Contact.js:4-29 | the failure list is strictly ordered by declared path, so each path reports at most once, and a validator is listed exactly when its own path reports it |
| ContactSchema.MessageText | backend/models/Contact.js:7-28 | the text each validator declares: never empty, and every text except the email pattern's opens with its path's label |
| ContactSchema.MessageTextInjective | backend/models/Contact.js:7-28 | the eight declared message texts are pairwise distinct |
| ContactSchema.MessagesNameFailures | backend/controllers/contactControllers.js:60 | the message list names a validator's text exactly when that validator is in the failure list |
| ContactSchema.NoViolationIff | backend/models/Contact.js:4-29 | nothing is reported exactly when every path passes its own validators |
| ContactSchema.ConformsIffNoViolation | backend/models/Contact.js:4-29 | the constraint table (name 2 to 50, email pattern, phone pattern, message at most 500) holds exactly when no validator fails |
| ContactSchema.InViolations | backend/models/Contact.js:4-29 | a validator is in the failure list exactly when its own path reports it |
| ContactSchema.NameViolations | backend/models/Contact.js:5-11 | "required" exactly for an empty trimmed name, "too short" for length 1, "too long" above 50 |
| ContactSchema.EmailViolations | backend/models/Contact.js:12-18 | "required" exactly for an empty normalised email, "invalid" for a non-empty one the pattern rejects |
| ContactSchema.PhoneViolations | backend/models/Contact.js:19-24 | "required" exactly for an empty trimmed phone, "invalid" for a non-empty one the pattern rejects |
| ContactSchema.MessageViolations | backend/models/Contact.js:25-29 | the message is reported exactly when its trimmed length exceeds 500 |
| ContactSchema.NormalizeFieldIdempotent | backend/models/Contact.js:8 | applying a field's setter twice is applying it once |
| ContactSchema.NormalizeIdempotent | backend/models/Contact.js:8-27 | normalising a normalised document changes nothing |
| ContactSchema.StoredMeans | backend/models/Contact.js:4-29 | a record the schema stores unchanged is exactly a normalised record that meets the constraint table |
| ContactSchema.StoredRevalidates | backend/models/Contact.js:4-29 | re-validating a stored record accepts it and changes no field |
| Controllers.ListNewestFirst | backend/controllers/contactControllers.js:7 | the listing holds every stored record exactly once and is sorted by `createdAt`, newest first |
| Controllers.GetAllContacts | backend/controllers/contactControllers.js:5-15 | 200 with every record exactly once, strictly newest first in a valid store; 500 with the fault's message on a store fault |
| Controllers.GetContact | backend/controllers/contactControllers.js:18-35 | 200 exactly when the id is stored, with that record; 404 "Contact not found" otherwise; 500 on a fault |
| Controllers.Truthy | backend/controllers/contactControllers.js:43 | `!name` is false exactly for a present, non-empty string |
| Controllers.Draft | backend/controllers/contactControllers.js:49-54 | the document built from the body has `message || ''` as its message |
| Controllers.Invalid | backend/controllers/contactControllers.js:59-64 | the 400 "Validation error" reply lists one text per failure and names a validator's text exactly when that validator failed |
| Controllers.CreateContact | backend/controllers/contactControllers.js:38-72 | 400 with the required-field notice if name, email or phone is missing or empty, before any validation; then 400 "Validation error" with the schema's failures, or 500 "Error creating contact" with the fault's message; 201 exactly when the pre-check, the schema and the store all succeed, with the normalised record under the next id; the store changes only on 201 |
| Controllers.UpdateContact | backend/controllers/contactControllers.js:75-106 | an invalid body gives 400 with its violations; a valid one under a store fault gives 500 "Error updating contact"; otherwise 200 exactly when the id is stored, with the fields replaced, id and `createdAt` kept and `updatedAt` advanced, and 404 when it is not; the store changes only on 200 and the id counter never |
| Controllers.DeleteContact | backend/controllers/contactControllers.js:108-128 | 200 exactly when the id is stored, returning the record as it was and removing only it; 404 or 500 otherwise, store unchanged |
| StoreLaws.EmptyStoreValid | backend/models/Contact.js:30-32 | the empty collection satisfies the store invariant |
| StoreLaws.CreatePreservesValid | backend/controllers/contactControllers.js:38-72 | creation keeps the invariant (own ids, ordered timestamps, schema-conforming fields, distinct creation times) and adds exactly one new record |
| StoreLaws.UpdatePreservesValid | backend/controllers/contactControllers.js:75-106 | update keeps the invariant and changes only the target record |
| StoreLaws.DeletePreservesValid | backend/controllers/contactControllers.js:108-128 | delete keeps the invariant and removes only the target record |
| StoreLaws.CreateThenGet | backend/controllers/contactControllers.js:18-57 | reading the id a create returned gives back exactly the created record |
| StoreLaws.UpdateThenGet | backend/controllers/contactControllers.js:75-91 | reading an id right after updating it gives the updated record |
| StoreLaws.DeleteThenGone | backend/controllers/contactControllers.js:108-121 | after a delete, reading or deleting the same id again gives 404 |
| StoreLaws.Apply | backend/controllers/contactControllers.js:5-128 | no request lowers the id counter, refills an emptied id below it, or breaks the store invariant |
| StoreLaws.Run | backend/controllers/contactControllers.js:5-128 | the same holds for any sequence of requests served one at a time |
| StoreLaws.DeletedIdNotReissued | backend/controllers/contactControllers.js:108-121 | after a delete and any number of further requests, the id holds no record and a create does not hand it out |
| StoreLaws.CreateRejectionNamesFailures | backend/controllers/contactControllers.js:59-64 | a create that passes the presence check but fails the schema answers 400 "Validation error", store unchanged, naming a validator's message exactly when its path reports it |
| StoreLaws.UpdateRejectionNamesFailures | backend/controllers/contactControllers.js:93-98 | an update with an invalid body answers 400 "Validation error", store unchanged, naming a validator's message exactly when its path reports it |
| StoreLaws.StoredRecordRevalidates | backend/controllers/contactControllers.js:79-83 | every stored record passes the schema unchanged, so updating a record with its own fields succeeds |
| StoreLaws.CreatedIsNewest | backend/models/Contact.js:31 | a successful create stores the new record at the latest instant the clock has given out, keeps the invariant and every other record, and grows the store by one |
| StoreLaws.NewestIsFirst | backend/controllers/contactControllers.js:7 | in a strictly newest-first listing, the latest created record is first and appears nowhere else |
| StoreLaws.LatestIsListedFirst | backend/controllers/contactControllers.js:5-15 | listing right after a create puts the new record first, followed by the other records |
| ClientValidation.Key | frontend/src/App.jsx:62 | the key in "<key> is required" is the field's label in lower case |
| ClientValidation.Hint | frontend/src/App.jsx:66-71 | each checked field has a non-empty hint that differs from its "is required" text; the message has none |
| ClientValidation.MatchesPattern | frontend/src/App.jsx:26-30 | `validators[name].test(value)`: the message always passes, and the email and phone patterns never pass a blank value |
| ClientValidation.ValidateField | frontend/src/App.jsx:60-75 | the result is empty, "<key> is required" or the field's hint, and always empty for the message |
| ClientValidation.ValidateFieldAcceptsIff | frontend/src/App.jsx:26-30 | a field passes exactly when the page accepts it: 2 to 50 letters or spaces with at least one letter; a `local@domain.tld` address; a 10-digit phone starting with 6 to 9; any message |
| ClientValidation.RejectionMessage | frontend/src/App.jsx:61-71 | a rejected field shows "is required" when blank or whitespace only, and its hint otherwise |
| ClientValidation.CollectErrors | frontend/src/App.jsx:80-83 | the errors object holds exactly the fields whose check failed, each mapped to its message |
| ClientValidation.ValidateForm | frontend/src/App.jsx:77-87 | the new errors map has a key exactly for each failing field, with its message, and the form is valid exactly when every field passes |
| ClientValidation.FormAcceptedIff | frontend/src/App.jsx:77-87 | the form is accepted exactly when the name, the email and the phone are; the message never blocks a submission |
| ClientValidation.BlankFormErrors | frontend/src/App.jsx:61-62 | a form whose name, email and phone are blank fails on exactly those three keys, each with "is required" |
| ClientValidation.BlankIsRequired | frontend/src/App.jsx:61-62 | a blank or whitespace-only required field is reported as required |
| Domain.Fields.Set | frontend/src/App.jsx:92 | `{ ...prev, [name]: value }`: the named field takes the value and every other field is kept |
| ClientApp.HandleChange | frontend/src/App.jsx:89-97 | the edited field takes the typed value and no other field changes; a shown error for that field is cleared to "" but keeps its key |
| ClientApp.BeginSubmit | frontend/src/App.jsx:99-105 | an invalid form shows its errors and the "Please fix the errors" alert and posts nothing; a valid one clears the errors, starts loading and posts the form |
| ClientApp.FinishSubmit | frontend/src/App.jsx:107-117 | on success the new contact is put first, the form is reset and the success alert shown; on failure list and form stay; loading ends either way |
| ClientApp.HandleSubmit | frontend/src/App.jsx:99-118 | from click to settled state: an invalid form changes neither form nor list; a valid one ends with no errors, not loading, and the list and form as the reply decides |
| ClientApp.RemoveId | frontend/src/App.jsx:123 | the filtered list holds exactly the cards whose id differs from the deleted one |
| ClientApp.RemoveIdAppend | frontend/src/App.jsx:123 | filtering distributes over concatenation, so the remaining cards keep their relative order |
| ClientApp.HandleDelete | frontend/src/App.jsx:120-129 | the card disappears and "Contact deleted" is shown only when the server confirms; otherwise the list stays and "Delete failed" is shown |
| ClientApp.Reverse | frontend/src/App.jsx:133 | the copy has the same length with position i holding the element from the other end |
| ClientApp.ReverseInvolution | frontend/src/App.jsx:133 | reversing twice gives the list back |
| ClientApp.ReversePermutes | frontend/src/App.jsx:133 | reversing keeps every contact with its multiplicity |
| ClientApp.ToggleSort | frontend/src/App.jsx:131-134 | the label flips, the list is reversed, and nothing else changes |
| ClientApp.ToggleTwiceRestores | frontend/src/App.jsx:131-134 | toggling twice restores both the label and the list |
| ClientApp.InitialLabelMatches | frontend/src/App.jsx:21-24 | the page starts with an empty list under the newest-first label |
| ClientApp.ToggleKeepsLabel | frontend/src/App.jsx:131-134 | if the list is in the order its label names, it still is after a toggle |
| ClientApp.RemoveIdKeepsOrder | frontend/src/App.jsx:123 | removing a card keeps a list in its label's order |
| ClientApp.PrependKeepsOrder | frontend/src/App.jsx:109 | a contact no older than every listed one can be put first without breaking newest-first order |
| ClientApp.DeleteKeepsLabel | frontend/src/App.jsx:120-129 | a delete, confirmed or not, keeps the list in its label's order |
| ClientApp.SubmitKeepsNewestFirst | frontend/src/App.jsx:109 | under the newest-first label, adding the newest contact at the front keeps the list in order |
| ClientApp.AscendingPrependBreaksLabel | frontend/src/App.jsx:109 | under the oldest-first label, a newer contact put at the front breaks the order the label names |
| Agreement.LowerKeepsServerEmail | backend/models/Contact.js:16-17 | lower-casing an address the schema's pattern accepts keeps it accepted |
| Agreement.ClientEmailAcceptedByServer | frontend/src/App.jsx:28 | an email the page accepts passes the schema's email validators after trimming and lower-casing |
| Agreement.ClientPhoneAcceptedByServer | frontend/src/App.jsx:29 | a phone the page accepts passes the schema's phone validators after trimming |
| Agreement.ClientNameBoundedOnServer | frontend/src/App.jsx:27 | a name the page accepts trims to 1 to 50 characters, and the schema accepts it exactly when at least 2 remain |
| Agreement.SpacedNameDisagrees | frontend/src/App.jsx:27 | `" a"` passes the page but the schema rejects it as too short |
| Agreement.DigitNameDisagrees | frontend/src/App.jsx:27 | `"R2"` fails the page's name hint but the schema accepts it |
| Agreement.DoubleAtDisagrees | backend/models/Contact.js:17 | `"a@b@c.d"` fails the page's email check but passes the schema |
| Agreement.LongMessageDisagrees | backend/models/Contact.js:28 | a 501-character message passes the page but the schema rejects it as too long |
| Agreement.PostBody | frontend/src/App.jsx:108 | the posted body carries the form's message, each of name, email and phone is present and non-empty exactly when the form's is, and when all three are the server builds exactly the form as its document |
| Agreement.AcceptedFormIsCreated | backend/controllers/contactControllers.js:38-57 | a form the page accepts is created, without a store fault, exactly when its trimmed name has at least 2 characters and its trimmed message at most 500 |
| Agreement.FormFieldsAccepted | frontend/src/App.jsx:80-86 | a valid form passes the name, email and phone checks one by one |
| Agreement.PostReplyOf | frontend/src/App.jsx:108-114 | the page sees a created contact exactly for a 2xx response carrying a record, and that record is what it adds |
| Agreement.DeleteReplyOf | frontend/src/App.jsx:121-127 | the page sees a confirmed delete exactly for a 2xx response |
| Agreement.SubmitRound | frontend/src/App.jsx:99-118 | a submit leaves the store alone when the form is invalid, and either keeps the list or adds exactly one card in front |
| Agreement.DeleteRound | frontend/src/App.jsx:120-129 | a delete round never adds cards |
| Agreement.SubmitRoundKeepsShown | frontend/src/App.jsx:109 | after a submit every card is still a stored record, and a card it adds is the record the service just stored |
| Agreement.PostKeepsCards | backend/controllers/contactControllers.js:56-57 | a create keeps every shown card's record and the store invariant, and the record a 2xx reply carries is the stored one |
| Agreement.DeleteRoundKeepsShown | frontend/src/App.jsx:123 | after a delete every card is still a stored record, and once the service removed the id no card carries it |
| ScenarioFields.AshaDraft | backend/controllers/contactControllers.js:49-54 | a body without a message passes the presence check and becomes a document with message "" |
| ScenarioFields.AshaConforms | backend/models/Contact.js:4-29 | "Asha Rao", "asha@example.com", "9876543210" meet the constraint table |
| ScenarioFields.BadDraft | backend/controllers/contactControllers.js:43-54 | a body with "A", "bad" and "123" passes the presence check and becomes that document with message "" |
| ScenarioFields.BadViolations | backend/models/Contact.js:4-29 | the name is too short, the address invalid and the phone invalid, in that order, and the empty message passes |
| ScenarioFields.BadIsNormal | backend/models/Contact.js:8-27 | "A", "bad", "123" are already trimmed and lower-case |
| Scenarios.AshaIsNormal | backend/models/Contact.js:8-27 | the well-formed request is its own trimmed and lower-cased form |
| Scenarios.AshaIsValid | backend/models/Contact.js:4-29 | the well-formed request passes the schema unchanged |
| Scenarios.CreatedAsSent | backend/controllers/contactControllers.js:49-57 | a body whose document the schema accepts unchanged is stored as sent under the next id with a 201 |
| Scenarios.AshaRaoIsCreated | backend/controllers/contactControllers.js:43-57 | name, email and phone without a message give 201 with the next id, the fields as sent and message "" |
| Scenarios.RejectedAsValidated | backend/controllers/contactControllers.js:56-64 | a body past the presence check whose document fails the schema is answered 400 with exactly its failures, store unchanged |
| Scenarios.ThreeFieldsRejected | backend/controllers/contactControllers.js:59-64 | a one-letter name, an address without `@` and a 3-digit phone give 400 with three messages in schema order, store unchanged |

## Left out

- `backend/server.js`, `backend/routes/contactRoutes.js`, CORS and the "Route not found" handler are not part of this model. Each handler is a function of the request's id and body.
- The page's components (`Input`, `TextArea`, `Alert`, `ContactCard`), styling and icons are not modelled. This includes the phone input's `maxLength` attribute.
- The initial fetch in `useEffect`, its `isMounted` guard and the "Failed to fetch contacts" alert are left out. The model starts from the state before that fetch answers.
- Dismissing the alert is left out.
- Agreement.PostReplyOf: a 2xx reply without a record body is read as a failure, whereas the page would prepend whatever `res.data` holds. The create handler never sends such a reply: its only 2xx is 201 with the created record (`Agreement.PostKeepsCards`).
- axios, HTTP and JSON are not modelled. A response's status decides what the page sees, as `Agreement.PostReplyOf` and `Agreement.DeleteReplyOf` state.
- Mongoose internals and MongoDB are replaced by an abstract store. That store is a map from ids to records, an id counter and a logical clock.
- Malformed ids (`CastError`) are left out: ids are natural numbers.
- Store faults are an input (`Some(message)`). The model does not say when a store fails.
- Controllers.UpdateContact: validators run before the store lookup, as Mongoose runs update validators before the query. So a body that is both invalid and aimed at a missing id gets 400, not 404 (`StoreLaws.UpdateRejectionNamesFailures` holds whatever the id).
- Controllers.UpdateContact: the body is always all four strings. An update with absent fields, which Mongoose would leave untouched, is not modelled.
- Controllers.GetAllContacts: records with equal `createdAt` may come in any order. The store invariant rules such ties out, because the logical clock strictly increases. `Date.now()` can tie in the real system.
- ContactSchema.Violations: the order of messages is the schema's declaration order. That is the order of `error.errors` for a document validated on save.
- Text.Lower: only ASCII capitals are lower-cased. JavaScript's `toLowerCase` also maps non-ASCII letters.
- String lengths are counted in characters, while JavaScript counts UTF-16 code units. A name or message with characters outside the Basic Multilingual Plane can differ in length near the 50 and 500 bounds.
- Concurrent requests and the ordering of interleaved responses are left out. Each handler is one atomic step.
- The 500 responses keep the store's error message as an opaque string. Its contents are not modelled.

=== FILE: agreement.dfy ===
/** How the two validators of the contact rules relate, and what one round
    trip from the page to the server and back does. The client checks the raw
    input (frontend/src/App.jsx); the server checks the trimmed and, for the
    email, lower-cased value (backend/models/Contact.js). */
module Agreement {
  import opened Wrappers
  import opened Text
  import opened Patterns
  import opened Domain
  import opened ContactSchema
  import opened Controllers
  import opened StoreLaws
  import opened ClientValidation
  import ClientApp

  /** Lower-casing keeps the `@` and `.` of an address and adds no whitespace,
      so a server-valid address stays server-valid. */
  lemma LowerKeepsServerEmail(s: string)
    requires ServerEmail(s)
    ensures ServerEmail(Lower(s))
  {
    LowerProperties(s);
    var i, j :| 0 < i && i + 1 < j < |s| - 1 && s[i] == '@' && s[j] == '.';
    assert Lower(s)[i] == '@' && Lower(s)[j] == '.';
  }

  /** An email the client accepts also passes the server's checks once the
      schema has trimmed and lower-cased it. */
  lemma ClientEmailAcceptedByServer(v: string)
    requires ValidateField(Email, v) == []
    ensures EmailError(NormalizeField(Email, v)) == None
  {
    assert ClientEmail(v);
    TrimOfSpaceFree(v);
    ClientEmailIsServerEmail(v);
    LowerKeepsServerEmail(v);
  }

  /** A phone number the client accepts also passes the server's checks: it
      has no whitespace to trim and the pattern is the same. */
  lemma ClientPhoneAcceptedByServer(v: string)
    requires ValidateField(Phone, v) == []
    ensures PhoneError(NormalizeField(Phone, v)) == None
  {
    assert PhonePattern(v);
    TrimOfTrimmed(v);
  }

  /** A name the client accepts is at most 50 characters and not blank on
      the server too; only its lower bound can fail after trimming. */
  lemma ClientNameBoundedOnServer(v: string)
    requires ValidateField(Name, v) == []
    ensures 0 < |NormalizeField(Name, v)| <= NameMaxLength
    ensures NameError(NormalizeField(Name, v)) == None <==> |NormalizeField(Name, v)| >= NameMinLength
  {
    TrimEmptyIff(v);
  }

  /** The name " a" passes the client (two characters from `[a-zA-Z\s]`, not
      blank) but trims to "a", which the server rejects as too short. */
  lemma SpacedNameDisagrees()
    ensures ValidateField(Name, " a") == []
    ensures NameError(NormalizeField(Name, " a")) == Some(NameTooShort)
  {
    var v := " a";
    assert Trim(v) == Trim(v[1..]) && v[1..] == "a" && Trim("a") == "a";
  }

  /** The server takes any name of 2 to 50 characters; the client takes
      letters and whitespace only. */
  lemma DigitNameDisagrees()
    ensures ValidateField(Name, "R2") == "Name must be 2\U{2013}50 letters only"
    ensures NameError(NormalizeField(Name, "R2")) == None
  {
    var v := "R2";
    assert !ClientName(v) by {
      assert !IsAsciiLetter(v[1]) && !IsSpace(v[1]);
    }
    assert Trim(v) == v;
  }

  /** The server's email pattern lets a second `@` through; the client's does not. */
  lemma DoubleAtDisagrees()
    ensures ValidateField(Email, "a@b@c.d") == "Enter a valid email address"
    ensures EmailError(NormalizeField(Email, "a@b@c.d")) == None
  {
    var v := "a@b@c.d";
    assert NoSpace(v);
    TrimOfSpaceFree(v);
    LowerOfNoUpper(v);
    assert !ClientEmail(v) by {
      forall i | 0 < i < |v| && v[i] == '@'
        ensures exists k | 0 <= k < |v| && k != i :: v[k] == '@'
      {
        if i == 1 { assert v[3] == '@'; } else { assert v[1] == '@'; }
      }
    }
    assert ServerEmail(v) by {
      assert v[1] == '@' && v[5] == '.';
    }
  }

  /** The client never checks the message; the server caps it at 500
      characters after trimming. */
  lemma LongMessageDisagrees()
    ensures var v := seq(501, _ => 'x');
      && ValidateField(Message, v) == []
      && MessageError(NormalizeField(Message, v)) == Some(MessageTooLong)
  {
    var v := seq(501, _ => 'x');
    assert NoSpace(v);
    TrimOfSpaceFree(v);
  }

  /** The JSON body `axios.post` sends: the form's four strings, all present. */
  function PostBody(form: Fields): (p: Payload)
    ensures p.message == Some(form.message)
    ensures Truthy(p.name) <==> form.name != []
    ensures Truthy(p.email) <==> form.email != []
    ensures Truthy(p.phone) <==> form.phone != []
    ensures Truthy(p.name) && Truthy(p.email) && Truthy(p.phone) ==> Draft(p) == form
  {
    Payload(Some(form.name), Some(form.email), Some(form.phone), Some(form.message))
  }

  /** A form the client accepts is created by the server, without a store
      fault, exactly when its trimmed name is not too short and its trimmed
      message is not too long: the two checks the client does not make. */
  lemma AcceptedFormIsCreated(s: Store, form: Fields)
    requires ValidateForm(form).valid
    ensures CreateContact(s, PostBody(form), None).response.status == 201 <==>
      NameMinLength <= |Trim(form.name)| && |Trim(form.message)| <= MessageMaxLength
  {
    FormFieldsAccepted(form);
    ClientEmailAcceptedByServer(form.email);
    ClientPhoneAcceptedByServer(form.phone);
    ClientNameBoundedOnServer(form.name);
    var p := PostBody(form);
    assert Truthy(p.name) && Truthy(p.email) && Truthy(p.phone) by {
      TrimEmptyIff(form.name);
      TrimEmptyIff(form.email);
      TrimEmptyIff(form.phone);
    }
    assert Draft(p) == form;
    ValidateAcceptsIff(form);
  }

  /** A valid form passes each of its three checked fields. */
  lemma FormFieldsAccepted(form: Fields)
    requires ValidateForm(form).valid
    ensures ValidateField(Name, form.name) == [] && ValidateField(Email, form.email) == []
    ensures ValidateField(Phone, form.phone) == []
  {
    assert form.Get(Name) == form.name && form.Get(Email) == form.email && form.Get(Phone) == form.phone;
  }

  /** What the page learns from a POST: axios resolves on a 2xx status and
      rejects on any other. A 2xx without a record is read as a failure; the
      create handler never sends one, since its only 2xx is 201 carrying the
      created record. */
  function PostReplyOf(r: Response): (reply: ClientApp.PostReply)
    ensures reply.Created? <==> 200 <= r.status < 300 && r.body.Record?
    ensures reply.Created? ==> reply.contact == r.body.contact
  {
    if 200 <= r.status < 300 && r.body.Record? then ClientApp.Created(r.body.contact) else ClientApp.PostFailed
  }

  /** What the page learns from a DELETE. */
  function DeleteReplyOf(r: Response): (reply: ClientApp.DeleteReply)
    ensures reply.Deleted? <==> 200 <= r.status < 300
  {
    if 200 <= r.status < 300 then ClientApp.Deleted else ClientApp.DeleteFailed
  }

  /** Every card on the page is a record the store holds. */
  ghost predicate Shown(st: ClientApp.State, s: Store) {
    forall c | c in st.contacts :: c.id in s.records
  }

  /** One submit from the page: validate locally, post if valid, and apply the
      server's answer; the store changes only through the create handler. */
  function SubmitRound(st: ClientApp.State, s: Store, fault: Option<string>): (r: (ClientApp.State, Store))
    ensures !ValidateForm(st.form).valid ==> r.1 == s
    ensures r.0.contacts == st.contacts || (|r.0.contacts| == |st.contacts| + 1 && r.0.contacts[1..] == st.contacts)
  {
    var b := ClientApp.BeginSubmit(st);
    if b.request.None? then (b.state, s)
    else
      var t := CreateContact(s, PostBody(st.form), fault);
      (ClientApp.FinishSubmit(b.state, PostReplyOf(t.response)), t.store)
  }

  /** One delete from the page. */
  function DeleteRound(st: ClientApp.State, s: Store, id: Id, fault: Option<string>): (r: (ClientApp.State, Store))
    ensures |r.0.contacts| <= |st.contacts|
  {
    var t := DeleteContact(s, id, fault);
    (ClientApp.HandleDelete(st, id, DeleteReplyOf(t.response)), t.store)
  }

  /** A submit round keeps every card backed by a stored record, and a card
      it adds is the record the server just created. */
  lemma SubmitRoundKeepsShown(st: ClientApp.State, s: Store, fault: Option<string>)
    requires Valid(s) && Shown(st, s)
    ensures var (st', s') := SubmitRound(st, s, fault); Shown(st', s') && Valid(s')
    ensures var (st', s') := SubmitRound(st, s, fault);
      |st'.contacts| == |st.contacts| + 1 ==>
        st'.contacts[0].id in s'.records && s'.records[st'.contacts[0].id] == st'.contacts[0]
  {
    var b := ClientApp.BeginSubmit(st);
    if b.request.Some? {
      PostKeepsCards(st.contacts, s, PostBody(st.form), fault);
    }
  }

  /** The cards already shown stay backed through a create, and the record a
      successful POST reports is the one now in the store. */
  lemma PostKeepsCards(cards: seq<Contact>, s: Store, p: Payload, fault: Option<string>)
    requires Valid(s) && forall c | c in cards :: c.id in s.records
    ensures var t := CreateContact(s, p, fault);
      && Valid(t.store)
      && (forall c | c in cards :: c.id in t.store.records)
      && (PostReplyOf(t.response).Created? ==>
            var c := PostReplyOf(t.response).contact;
            c.id in t.store.records && t.store.records[c.id] == c)
  {
    CreatePreservesValid(s, p, fault);
  }

  /** A delete round keeps every card backed by a stored record; once the
      store has dropped the record, the page shows no card with its id. */
  lemma DeleteRoundKeepsShown(st: ClientApp.State, s: Store, id: Id, fault: Option<string>)
    requires Valid(s) && Shown(st, s)
    ensures var (st', s') := DeleteRound(st, s, id, fault); Shown(st', s') && Valid(s')
    ensures var (st', s') := DeleteRound(st, s, id, fault);
      s' != s ==> forall c | c in st'.contacts :: c.id != id
  {
    DeletePreservesValid(s, id, fault);
  }
}

=== FILE: client_app.dfy ===
/** The state of the contact page in frontend/src/App.jsx and the handlers that
    change it: typing into a field, submitting the form, deleting a card and
    flipping the sort order. Each request to the server is replaced by its
    outcome, given as an input. */
module ClientApp {
  import Wrappers
  import opened Domain
  import opened ClientValidation

  datatype SortOrder = Desc | Asc

  datatype AlertKind = Success | Error

  /** The banner at the top of the page. */
  datatype Alert = Alert(kind: AlertKind, message: string)

  /** The React state of the page: `formData`, `errors`, `contacts`, `alert`,
      `loading` and `sortOrder`. */
  datatype State = State(
    form: Fields,
    errors: map<Field, string>,
    contacts: seq<Contact>,
    alert: Wrappers.Option<Alert>,
    loading: bool,
    sortOrder: SortOrder)

  /** The state on first render, before the initial fetch answers. */
  const Initial := State(BlankFields, map[], [], Wrappers.None, false, Desc)

  /** `handleChange`: the field takes the typed value, and a message shown
      under it is blanked; its key stays in the errors object. */
  function HandleChange(st: State, f: Field, v: string): (r: State)
    ensures r.form.Get(f) == v
    ensures forall g: Field | g != f :: r.form.Get(g) == st.form.Get(g)
    ensures r.errors.Keys == st.errors.Keys
    ensures f in r.errors ==> r.errors[f] == []
    ensures forall g | g in st.errors && g != f :: r.errors[g] == st.errors[g]
    ensures r.contacts == st.contacts && r.alert == st.alert && r.loading == st.loading && r.sortOrder == st.sortOrder
  {
    var errors := if f in st.errors && st.errors[f] != [] then st.errors[f := []] else st.errors;
    st.(form := st.form.Set(f, v), errors := errors)
  }

  /** The state right after the click, and the body of the POST it sends, if any. */
  datatype Submission = Submission(state: State, request: Wrappers.Option<Fields>)

  /** The synchronous half of `handleSubmit`: validate, then either show the
      errors and stop, or clear the errors, start loading and post the form. */
  function BeginSubmit(st: State): (r: Submission)
    ensures r.state.errors == ValidateForm(st.form).errors
    ensures r.request.Some? <==> ValidateForm(st.form).valid
    ensures r.request.Some? ==> r.request.value == st.form && r.state.errors == map[] && r.state.loading
    ensures r.request.None? ==> r.state.alert == Wrappers.Some(Alert(Error, "Please fix the errors"))
    ensures r.request.None? ==> r.state.loading == st.loading
    ensures r.state.form == st.form && r.state.contacts == st.contacts && r.state.sortOrder == st.sortOrder
  {
    var check := ValidateForm(st.form);
    if !check.valid then
      Submission(st.(errors := check.errors, alert := Wrappers.Some(Alert(Error, "Please fix the errors"))), Wrappers.None)
    else
      Submission(st.(errors := check.errors, loading := true), Wrappers.Some(st.form))
  }

  /** How the POST ended: the server's `res.data`, or a thrown error. */
  datatype PostReply = Created(contact: Contact) | PostFailed

  /** The asynchronous half of `handleSubmit`: on success the new contact is
      put in front of the list and the form is cleared; loading ends either way. */
  function FinishSubmit(st: State, reply: PostReply): (r: State)
    ensures !r.loading && r.errors == st.errors && r.sortOrder == st.sortOrder
    ensures reply.Created? ==>
      && r.contacts == [reply.contact] + st.contacts
      && r.form == BlankFields
      && r.alert == Wrappers.Some(Alert(Success, "Contact added successfully"))
    ensures reply.PostFailed? ==>
      && r.contacts == st.contacts
      && r.form == st.form
      && r.alert == Wrappers.Some(Alert(Error, "Failed to add contact"))
  {
    match reply
    case Created(c) =>
      st.(contacts := [c] + st.contacts, form := BlankFields,
          alert := Wrappers.Some(Alert(Success, "Contact added successfully")), loading := false)
    case PostFailed =>
      st.(alert := Wrappers.Some(Alert(Error, "Failed to add contact")), loading := false)
  }

  /** `handleSubmit` from click to settled state; `reply` is consulted only
      when a request was sent. */
  function HandleSubmit(st: State, reply: PostReply): (r: State)
    ensures !ValidateForm(st.form).valid ==> r == BeginSubmit(st).state
    ensures !ValidateForm(st.form).valid ==> r.form == st.form && r.contacts == st.contacts
    ensures ValidateForm(st.form).valid ==> r.errors == map[] && !r.loading
    ensures ValidateForm(st.form).valid && reply.Created? ==>
      r.contacts == [reply.contact] + st.contacts && r.form == BlankFields
    ensures ValidateForm(st.form).valid && reply.PostFailed? ==>
      r.contacts == st.contacts && r.form == st.form
  {
    var s := BeginSubmit(st);
    if s.request.None? then s.state else FinishSubmit(s.state, reply)
  }

  /** The contacts other than the one with the given `_id`, in their order. */
  function RemoveId(cs: seq<Contact>, id: Id): (r: seq<Contact>)
    ensures |r| <= |cs|
    ensures forall c :: c in r <==> c in cs && c.id != id
  {
    if cs == [] then []
    else if cs[0].id == id then RemoveId(cs[1..], id)
    else [cs[0]] + RemoveId(cs[1..], id)
  }

  /** How the DELETE ended. */
  datatype DeleteReply = Deleted | DeleteFailed

  /** `handleDelete(id)`: the card disappears only once the server confirms. */
  function HandleDelete(st: State, id: Id, reply: DeleteReply): (r: State)
    ensures reply.Deleted? ==> r.contacts == RemoveId(st.contacts, id)
    ensures reply.Deleted? ==> r.alert == Wrappers.Some(Alert(Success, "Contact deleted"))
    ensures reply.DeleteFailed? ==> r.contacts == st.contacts
    ensures reply.DeleteFailed? ==> r.alert == Wrappers.Some(Alert(Error, "Delete failed"))
    ensures r.form == st.form && r.errors == st.errors && r.loading == st.loading && r.sortOrder == st.sortOrder
  {
    match reply
    case Deleted => st.(contacts := RemoveId(st.contacts, id), alert := Wrappers.Some(Alert(Success, "Contact deleted")))
    case DeleteFailed => st.(alert := Wrappers.Some(Alert(Error, "Delete failed")))
  }

  /** `[...s].reverse()`. */
  function Reverse<T>(s: seq<T>): (r: seq<T>)
    ensures |r| == |s|
    ensures forall i | 0 <= i < |s| :: r[i] == s[|s| - 1 - i]
  {
    if s == [] then [] else Reverse(s[1..]) + [s[0]]
  }

  function Flip(o: SortOrder): SortOrder {
    if o == Desc then Asc else Desc
  }

  /** `toggleSort`: the label flips and the list is reversed in place. */
  function ToggleSort(st: State): (r: State)
    ensures r.sortOrder != st.sortOrder
    ensures |r.contacts| == |st.contacts|
    ensures forall i | 0 <= i < |st.contacts| :: r.contacts[i] == st.contacts[|st.contacts| - 1 - i]
    ensures r.form == st.form && r.errors == st.errors && r.alert == st.alert && r.loading == st.loading
  {
    st.(sortOrder := Flip(st.sortOrder), contacts := Reverse(st.contacts))
  }

  /** The list is in the order its label names: newest first under `Desc`,
      oldest first under `Asc`. */
  ghost predicate Ordered(cs: seq<Contact>, o: SortOrder) {
    forall i, j | 0 <= i < j < |cs| ::
      if o == Desc then cs[i].createdAt >= cs[j].createdAt else cs[i].createdAt <= cs[j].createdAt
  }

  ghost predicate LabelMatches(st: State) {
    Ordered(st.contacts, st.sortOrder)
  }

  /** The page starts with an empty list under the `Desc` label. */
  lemma InitialLabelMatches()
    ensures LabelMatches(Initial)
  {
  }

  /** Reversing twice gives the list back. */
  lemma ReverseInvolution<T>(s: seq<T>)
    ensures Reverse(Reverse(s)) == s
  {
  }

  /** Reversing keeps every contact, with its multiplicity. */
  lemma {:induction false} ReversePermutes<T>(s: seq<T>)
    ensures multiset(Reverse(s)) == multiset(s)
  {
    if s != [] {
      ReversePermutes(s[1..]);
      assert s == [s[0]] + s[1..];
    }
  }

  /** Toggling twice restores the label and the list. */
  lemma ToggleTwiceRestores(st: State)
    ensures ToggleSort(ToggleSort(st)) == st
  {
    ReverseInvolution(st.contacts);
  }

  /** Toggling keeps the list in the order its label names. */
  lemma ToggleKeepsLabel(st: State)
    requires LabelMatches(st)
    ensures LabelMatches(ToggleSort(st))
  {
    var r := ToggleSort(st);
    var n := |st.contacts|;
    forall i, j | 0 <= i < j < n
      ensures if r.sortOrder == Desc then r.contacts[i].createdAt >= r.contacts[j].createdAt
              else r.contacts[i].createdAt <= r.contacts[j].createdAt
    {
      assert r.contacts[i] == st.contacts[n - 1 - i] && r.contacts[j] == st.contacts[n - 1 - j];
    }
  }

  /** Removing one id keeps the other contacts in their relative order. */
  lemma {:induction false} RemoveIdAppend(a: seq<Contact>, b: seq<Contact>, id: Id)
    ensures RemoveId(a + b, id) == RemoveId(a, id) + RemoveId(b, id)
  {
    if a == [] {
      assert a + b == b;
    } else {
      assert (a + b)[0] == a[0] && (a + b)[1..] == a[1..] + b;
      RemoveIdAppend(a[1..], b, id);
      if a[0].id != id {
        var x, y := RemoveId(a[1..], id), RemoveId(b, id);
        assert [a[0]] + (x + y) == ([a[0]] + x) + y;
      }
    }
  }

  /** A list in label order stays in label order after a removal. */
  lemma {:induction false} RemoveIdKeepsOrder(cs: seq<Contact>, id: Id, o: SortOrder)
    requires Ordered(cs, o)
    ensures Ordered(RemoveId(cs, id), o)
  {
    if cs != [] {
      assert Ordered(cs[1..], o) by {
        forall i, j | 0 <= i < j < |cs| - 1
          ensures if o == Desc then cs[1..][i].createdAt >= cs[1..][j].createdAt
                  else cs[1..][i].createdAt <= cs[1..][j].createdAt
        {
          assert cs[1..][i] == cs[i + 1] && cs[1..][j] == cs[j + 1];
        }
      }
      RemoveIdKeepsOrder(cs[1..], id, o);
      if cs[0].id != id {
        var rest := RemoveId(cs[1..], id);
        PrependKeepsOrder(cs[0], rest, o);
      }
    }
  }

  /** Putting `c` in front of an ordered list that `c` comes before keeps it ordered. */
  lemma PrependKeepsOrder(c: Contact, rest: seq<Contact>, o: SortOrder)
    requires Ordered(rest, o)
    requires forall x | x in rest :: if o == Desc then c.createdAt >= x.createdAt else c.createdAt <= x.createdAt
    ensures Ordered([c] + rest, o)
  {
    var s := [c] + rest;
    forall i, j | 0 <= i < j < |s|
      ensures if o == Desc then s[i].createdAt >= s[j].createdAt else s[i].createdAt <= s[j].createdAt
    {
      assert s[j] == rest[j - 1];
      if i > 0 {
        assert s[i] == rest[i - 1];
      } else {
        assert rest[j - 1] in rest;
      }
    }
  }

  /** A confirmed delete keeps the list in the order its label names. */
  lemma DeleteKeepsLabel(st: State, id: Id, reply: DeleteReply)
    requires LabelMatches(st)
    ensures LabelMatches(HandleDelete(st, id, reply))
  {
    RemoveIdKeepsOrder(st.contacts, id, st.sortOrder);
  }

  /** Under the `Desc` label, a created contact no older than every listed one
      goes to the right place: the front. */
  lemma SubmitKeepsNewestFirst(st: State, reply: PostReply)
    requires LabelMatches(st) && st.sortOrder == Desc
    requires reply.Created? ==> forall c | c in st.contacts :: c.createdAt <= reply.contact.createdAt
    ensures LabelMatches(HandleSubmit(st, reply))
  {
    if ValidateForm(st.form).valid && reply.Created? {
      PrependKeepsOrder(reply.contact, st.contacts, Desc);
    }
  }

  /** Under the `Asc` label the front is the wrong place: a newer contact put
      before an older one breaks the oldest-first order the label promises. */
  lemma AscendingPrependBreaksLabel(st: State, c: Contact)
    requires st.sortOrder == Asc && |st.contacts| > 0 && st.contacts[0].createdAt < c.createdAt
    requires ValidateForm(st.form).valid
    ensures !LabelMatches(HandleSubmit(st, Created(c)))
  {
    var r := HandleSubmit(st, Created(c));
    assert r.contacts[0] == c && r.contacts[1] == st.contacts[0];
  }
}

=== FILE: client_validation.dfy ===
/** The form checks of frontend/src/App.jsx: `validateField`, which tests the
    raw (untrimmed) input against the client patterns, and `validateForm`,
    which gathers the non-empty messages into an errors object keyed by field. */
module ClientValidation {
  import opened Text
  import opened Patterns
  import opened Domain

  /** The form key of each field, which the "is required" message starts with:
      the field's label in lower case. */
  function Key(f: Field): (r: string)
    ensures r == Lower(Label(f))
  {
    match f
    case Name => "name"
    case Email => "email"
    case Phone => "phone"
    case Message => "message"
  }

  /** The hint shown when a pattern rejects the input. The ranges are written
      with an en dash (U+2013), as in the source. */
  function Hint(f: Field): (r: string)
    ensures r == [] <==> f == Message
    ensures r != Key(f) + " is required"
  {
    match f
    case Name => "Name must be 2\U{2013}50 letters only"
    case Email => "Enter a valid email address"
    case Phone => "Phone must be 10 digits starting with 6\U{2013}9"
    case Message => ""
  }

  /** `validators[f].test(v)`; the message has no pattern and always passes.
      Only the name pattern lets a blank value through, so the "is required"
      check ahead of it matters for the name alone. */
  predicate MatchesPattern(f: Field, v: string): (b: bool)
    ensures f == Message ==> b
    ensures b && (f == Email || f == Phone) ==> Trim(v) != []
  {
    TrimEmptyIff(v);
    match f
    case Name => ClientName(v)
    case Email => ClientEmail(v)
    case Phone => PhonePattern(v)
    case Message => true
  }

  /** `validateField(key, value)`: the empty string when the value passes,
      otherwise the message to show under the input. */
  function ValidateField(f: Field, v: string): (e: string)
    ensures e == [] || e == Key(f) + " is required" || e == Hint(f)
    ensures f == Message ==> e == []
  {
    if f != Message && Trim(v) == [] then Key(f) + " is required"
    else if !MatchesPattern(f, v) then Hint(f)
    else ""
  }

  /** What the client accepts in each field, stated without the scan: a name
      of 2 to 50 letters and spaces that is not all spaces, an email of the
      form `local@domain.tld` over `[^\s@]`, a phone matching the phone
      pattern, and any message. */
  ghost predicate ClientAccepts(f: Field, v: string) {
    match f
    case Name =>
      && 2 <= |v| <= 50
      && (forall k | 0 <= k < |v| :: IsAsciiLetter(v[k]) || IsSpace(v[k]))
      && (exists k | 0 <= k < |v| :: IsAsciiLetter(v[k]))
    case Email => ClientEmailShape(v)
    case Phone => PhonePattern(v)
    case Message => true
  }

  /** No message was produced for a field exactly when the client accepts it. */
  lemma ValidateFieldAcceptsIff(f: Field, v: string)
    ensures ValidateField(f, v) == [] <==> ClientAccepts(f, v)
  {
    TrimEmptyIff(v);
    match f
    case Name =>
      if ClientName(v) && !AllSpace(v) {
        var k :| 0 <= k < |v| && !IsSpace(v[k]);
        assert IsAsciiLetter(v[k]);
      }
      if ClientAccepts(Name, v) {
        var k :| 0 <= k < |v| && IsAsciiLetter(v[k]);
        assert !IsSpace(v[k]);
      }
    case Email =>
      ClientEmailMeansShape(v);
      if ClientEmail(v) {
        TrimOfSpaceFree(v);
      }
    case Phone =>
      if PhonePattern(v) {
        assert !IsSpace(v[0]);
      }
    case Message =>
  }

  /** A rejected field shows "<key> is required" when the input is blank or
      whitespace only, and the field's hint otherwise. */
  lemma RejectionMessage(f: Field, v: string)
    requires ValidateField(f, v) != []
    ensures f != Message
    ensures AllSpace(v) ==> ValidateField(f, v) == Key(f) + " is required"
    ensures !AllSpace(v) ==> ValidateField(f, v) == Hint(f)
  {
    TrimEmptyIff(v);
  }

  /** The errors of the fields `fs`: each field whose check produced a
      message, mapped to that message. */
  function CollectErrors(form: Fields, fs: seq<Field>): (m: map<Field, string>)
    ensures forall f :: f in m <==> f in fs && ValidateField(f, form.Get(f)) != []
    ensures forall f | f in m :: m[f] == ValidateField(f, form.Get(f))
  {
    if fs == [] then map[]
    else
      var rest := CollectErrors(form, fs[1..]);
      var e := ValidateField(fs[0], form.Get(fs[0]));
      if e != [] then rest[fs[0] := e] else rest
  }

  datatype FormCheck = FormCheck(errors: map<Field, string>, valid: bool)

  /** `validateForm()`: the new errors object and whether it is empty. */
  function ValidateForm(form: Fields): (c: FormCheck)
    ensures forall f: Field :: f in c.errors <==> ValidateField(f, form.Get(f)) != []
    ensures forall f | f in c.errors :: c.errors[f] == ValidateField(f, form.Get(f))
    ensures c.valid <==> forall f: Field :: ValidateField(f, form.Get(f)) == []
  {
    var m := CollectErrors(form, FieldOrder);
    forall f: Field ensures f in FieldOrder {
      FieldOrderComplete(f);
    }
    FormCheck(m, m == map[])
  }

  /** The form is accepted exactly when the client accepts the name, the
      email and the phone; the message never holds a submission back. */
  lemma FormAcceptedIff(form: Fields)
    ensures ValidateForm(form).valid <==>
      ClientAccepts(Name, form.name) && ClientAccepts(Email, form.email) && ClientAccepts(Phone, form.phone)
  {
    ValidateFieldAcceptsIff(Name, form.name);
    ValidateFieldAcceptsIff(Email, form.email);
    ValidateFieldAcceptsIff(Phone, form.phone);
    assert form.Get(Name) == form.name && form.Get(Email) == form.email && form.Get(Phone) == form.phone;
    if ClientAccepts(Name, form.name) && ClientAccepts(Email, form.email) && ClientAccepts(Phone, form.phone) {
      forall f: Field ensures ValidateField(f, form.Get(f)) == [] {
        match f
        case Name =>
        case Email =>
        case Phone =>
        case Message =>
      }
    }
  }

  /** A form whose name, email and phone are blank or whitespace only (the
      form the app starts from and resets to, for one) fails on exactly those
      three fields, each with its "is required" message. */
  lemma BlankFormErrors(form: Fields)
    requires AllSpace(form.name) && AllSpace(form.email) && AllSpace(form.phone)
    ensures ValidateForm(form).errors.Keys == {Name, Email, Phone}
    ensures forall f | f in ValidateForm(form).errors :: ValidateForm(form).errors[f] == Key(f) + " is required"
    ensures !ValidateForm(form).valid
  {
    var m := ValidateForm(form).errors;
    BlankIsRequired(Name, form.name);
    BlankIsRequired(Email, form.email);
    BlankIsRequired(Phone, form.phone);
    assert Name in m by { assert form.Get(Name) == form.name; }
    assert Email in m by { assert form.Get(Email) == form.email; }
    assert Phone in m by { assert form.Get(Phone) == form.phone; }
    assert Message !in m;
    RequiredThree(m);
  }

  /** A map over the fields that holds the three required ones and not the
      message has exactly those keys. */
  lemma RequiredThree(m: map<Field, string>)
    requires Name in m && Email in m && Phone in m && Message !in m
    ensures m.Keys == {Name, Email, Phone}
  {
    forall f: Field ensures f in m <==> f in {Name, Email, Phone} {
      match f
      case Name =>
      case Email =>
      case Phone =>
      case Message =>
    }
  }

  /** A blank or whitespace-only required field is reported as required. */
  lemma BlankIsRequired(f: Field, v: string)
    requires AllSpace(v)
    ensures f != Message ==> ValidateField(f, v) == Key(f) + " is required"
    ensures f != Message ==> ValidateField(f, v) != []
  {
    TrimEmptyIff(v);
  }
}

=== FILE: contact_controllers.dfy ===
/** The five request handlers of backend/controllers/contactControllers.js as
    transitions over an abstract store. The store is a map from opaque ids
    to records, a counter that hands out fresh ids, and a logical clock for
    the `createdAt` / `updatedAt` timestamps. A fault of the store is an
    input: `Some(e)` stands for the exception with message `e` that the
    store raised during the operation. */
module Controllers {
  import opened Wrappers
  import opened Domain
  import opened ContactSchema

  datatype Store = Store(records: map<Id, Contact>, nextId: Id, clock: nat)

  const EmptyStore := Store(map[], 0, 0)

  /** What every reachable store satisfies: each record sits under its own id,
      below the id counter, its timestamps are ordered and in the past, its
      fields are what the schema stores, and no two records were created at
      the same instant. */
  predicate Valid(s: Store) {
    && Keyed(s.records)
    && (forall id | id in s.records :: id < s.nextId)
    && (forall id | id in s.records ::
          s.records[id].createdAt <= s.records[id].updatedAt < s.clock)
    && (forall id | id in s.records :: Stored(s.records[id].fields))
    && (forall a, b | a in s.records && b in s.records && a != b ::
          s.records[a].createdAt != s.records[b].createdAt)
  }

  /** Every record is stored under its own `_id`. */
  predicate Keyed(records: map<Id, Contact>) {
    forall id | id in records :: records[id].id == id
  }

  /** The JSON bodies the handlers send. */
  datatype Body =
    | Listing(contacts: seq<Contact>)
    | Record(contact: Contact)
    | Notice(message: string)
    | Rejected(message: string, errors: seq<string>)
    | Removed(message: string, deletedContact: Contact)
    | Failed(message: string, error: string)

  datatype Response = Response(status: nat, body: Body)

  /** A handler's effect: the store afterwards and the response sent. */
  datatype Step = Step(store: Store, response: Response)

  const NotFound := Response(404, Notice("Contact not found"))
  const MissingRequired := Response(400, Notice("Name, email, and phone are required"))

  /** The 400 response of a schema violation: the message texts as a list,
      one per failed validator and naming exactly the failed ones. */
  function Invalid(vs: seq<Violation>): (r: Response)
    ensures r.status == 400 && r.body.Rejected? && r.body.message == "Validation error"
    ensures |r.body.errors| == |vs|
    ensures forall v: Violation :: MessageText(v) in r.body.errors <==> v in vs
  {
    forall v: Violation ensures MessageText(v) in Messages(vs) <==> v in vs {
      MessagesNameFailures(vs, v);
    }
    Response(400, Rejected("Validation error", Messages(vs)))
  }

  /** A request body as parsed JSON: each field may be absent. */
  datatype Payload = Payload(name: Option<string>, email: Option<string>, phone: Option<string>, message: Option<string>)

  /** JavaScript truthiness of a string-or-undefined: present and non-empty. */
  predicate Truthy(o: Option<string>) {
    o.Some? && o.value != []
  }

  /** The document `createContact` builds: `message || ''` for the message. */
  function Draft(p: Payload): (d: Fields)
    requires Truthy(p.name) && Truthy(p.email) && Truthy(p.phone)
    ensures d.message == (if Truthy(p.message) then p.message.value else "")
  {
    Fields(p.name.value, p.email.value, p.phone.value, if p.message.Some? then p.message.value else "")
  }

  /** Records sorted newest first; ties in `createdAt` may come in any order. */
  ghost predicate NewestFirst(cs: seq<Contact>) {
    forall i, j | 0 <= i < j < |cs| :: cs[i].createdAt >= cs[j].createdAt
  }

  /** `Contact.find().sort({ createdAt: -1 })`: every stored record once,
      newest first. */
  method ListNewestFirst(records: map<Id, Contact>) returns (out: seq<Contact>)
    requires Keyed(records)
    ensures |out| == |records|
    ensures forall id | id in records :: records[id] in out
    ensures forall i | 0 <= i < |out| :: out[i].id in records && records[out[i].id] == out[i]
    ensures forall i, j | 0 <= i < j < |out| :: out[i].id != out[j].id
    ensures NewestFirst(out)
  {
    var remaining := records.Keys;
    out := [];
    while remaining != {}
      invariant remaining <= records.Keys
      invariant |out| + |remaining| == |records|
      invariant forall i | 0 <= i < |out| :: out[i].id in records && records[out[i].id] == out[i]
      invariant forall i | 0 <= i < |out| :: out[i].id !in remaining
      invariant forall i, j | 0 <= i < j < |out| :: out[i].id != out[j].id
      invariant forall id | id in records && id !in remaining :: records[id] in out
      invariant NewestFirst(out)
      invariant forall i, k | 0 <= i < |out| && k in remaining :: out[i].createdAt >= records[k].createdAt
      decreases |remaining|
    {
      NewestExists(records, remaining);
      var best :| best in remaining
        && forall k | k in remaining :: records[k].createdAt <= records[best].createdAt;
      var next := out + [records[best]];
      ListStepMembers(records, out, remaining, best, next);
      ListStepOrder(records, out, remaining, best, next);
      out, remaining := next, remaining - {best};
    }
  }

  /** Appending the chosen record keeps every record listed exactly once. */
  lemma ListStepMembers(records: map<Id, Contact>, out: seq<Contact>, remaining: set<Id>, best: Id, next: seq<Contact>)
    requires Keyed(records) && remaining <= records.Keys && best in remaining
    requires next == out + [records[best]]
    requires forall i | 0 <= i < |out| :: out[i].id in records && records[out[i].id] == out[i]
    requires forall i | 0 <= i < |out| :: out[i].id !in remaining
    requires forall i, j | 0 <= i < j < |out| :: out[i].id != out[j].id
    requires forall id | id in records && id !in remaining :: records[id] in out
    ensures forall i | 0 <= i < |next| :: next[i].id in records && records[next[i].id] == next[i]
    ensures forall i | 0 <= i < |next| :: next[i].id !in remaining - {best}
    ensures forall i, j | 0 <= i < j < |next| :: next[i].id != next[j].id
    ensures forall id | id in records && id !in remaining - {best} :: records[id] in next
  {
    assert forall i | 0 <= i < |out| :: next[i] == out[i];
    assert next[|out|] == records[best];
  }

  /** Appending the newest remaining record keeps the list newest first and
      ahead of everything still remaining. */
  lemma ListStepOrder(records: map<Id, Contact>, out: seq<Contact>, remaining: set<Id>, best: Id, next: seq<Contact>)
    requires remaining <= records.Keys && best in remaining
    requires forall k | k in remaining :: records[k].createdAt <= records[best].createdAt
    requires next == out + [records[best]]
    requires NewestFirst(out)
    requires forall i, k | 0 <= i < |out| && k in remaining :: out[i].createdAt >= records[k].createdAt
    ensures NewestFirst(next)
    ensures forall i, k | 0 <= i < |next| && k in remaining - {best} :: next[i].createdAt >= records[k].createdAt
  {
    assert forall i | 0 <= i < |out| :: next[i] == out[i];
    assert next[|out|] == records[best];
  }

  /** A non-empty set of stored ids has one whose record is newest. */
  lemma NewestExists(records: map<Id, Contact>, ids: set<Id>)
    requires ids != {} && ids <= records.Keys
    ensures exists best | best in ids :: forall k | k in ids :: records[k].createdAt <= records[best].createdAt
  {
    var x :| x in ids;
    if ids != {x} {
      NewestExists(records, ids - {x});
      var b :| b in ids - {x} && forall k | k in ids - {x} :: records[k].createdAt <= records[b].createdAt;
      if records[x].createdAt > records[b].createdAt {
        assert forall k | k in ids :: records[k].createdAt <= records[x].createdAt;
      } else {
        assert forall k | k in ids :: records[k].createdAt <= records[b].createdAt;
      }
    }
  }

  /** `getAllContacts`: 200 with every record newest first, or 500. */
  method GetAllContacts(s: Store, fault: Option<string>) returns (r: Response)
    requires Keyed(s.records)
    ensures fault.Some? ==> r == Response(500, Failed("Error fetching contacts", fault.value))
    ensures fault.None? ==> r.status == 200 && r.body.Listing?
    ensures fault.None? ==> |r.body.contacts| == |s.records|
    ensures fault.None? ==> forall id | id in s.records :: s.records[id] in r.body.contacts
    ensures fault.None? ==> forall c | c in r.body.contacts :: c.id in s.records && s.records[c.id] == c
    ensures fault.None? ==> NewestFirst(r.body.contacts)
    ensures fault.None? && Valid(s) ==>
      forall i, j | 0 <= i < j < |r.body.contacts| :: r.body.contacts[i].createdAt > r.body.contacts[j].createdAt
  {
    if fault.Some? {
      return Response(500, Failed("Error fetching contacts", fault.value));
    }
    var out := ListNewestFirst(s.records);
    return Response(200, Listing(out));
  }

  /** `getContactById`. */
  function GetContact(s: Store, id: Id, fault: Option<string>): (r: Response)
    ensures fault.Some? ==> r == Response(500, Failed("Error fetching contact", fault.value))
    ensures fault.None? ==> (r.status == 200 <==> id in s.records)
    ensures fault.None? && id in s.records ==> r.body == Record(s.records[id])
    ensures fault.None? && id !in s.records ==> r == NotFound
  {
    if fault.Some? then Response(500, Failed("Error fetching contact", fault.value))
    else if id !in s.records then NotFound
    else Response(200, Record(s.records[id]))
  }

  /** `createContact`: the presence pre-check, then the schema, then the write. */
  function CreateContact(s: Store, p: Payload, fault: Option<string>): (t: Step)
    ensures !(Truthy(p.name) && Truthy(p.email) && Truthy(p.phone)) ==> t == Step(s, MissingRequired)
    ensures t.response.status == 201 <==>
      Truthy(p.name) && Truthy(p.email) && Truthy(p.phone) && Validate(Draft(p)).Success? && fault.None?
    ensures Truthy(p.name) && Truthy(p.email) && Truthy(p.phone) && Validate(Draft(p)).Failure? ==>
      t == Step(s, Invalid(Validate(Draft(p)).error))
    ensures Truthy(p.name) && Truthy(p.email) && Truthy(p.phone) && Validate(Draft(p)).Success? && fault.Some? ==>
      t == Step(s, Response(500, Failed("Error creating contact", fault.value)))
    ensures t.response.status != 201 ==> t.store == s
    ensures t.response.status == 201 ==>
      && t.response.body.Record?
      && var c := t.response.body.contact;
      && c.id == s.nextId && t.store.nextId == s.nextId + 1
      && c.fields == Normalize(Draft(p))
      && c.createdAt == c.updatedAt == s.clock
      && t.store.records == s.records[c.id := c]
      && (Valid(s) ==> c.id !in s.records)
  {
    if !(Truthy(p.name) && Truthy(p.email) && Truthy(p.phone)) then Step(s, MissingRequired)
    else
      match Validate(Draft(p))
      case Failure(vs) => Step(s, Invalid(vs))
      case Success(n) =>
        if fault.Some? then Step(s, Response(500, Failed("Error creating contact", fault.value)))
        else
          var c := Contact(s.nextId, n, s.clock, s.clock);
          Step(Store(s.records[s.nextId := c], s.nextId + 1, s.clock + 1), Response(201, Record(c)))
  }

  /** `updateContact` with `runValidators`: the four fields are replaced and
      re-validated as a whole; the update validators run before the store is
      consulted. */
  function UpdateContact(s: Store, id: Id, body: Fields, fault: Option<string>): (t: Step)
    ensures Validate(body).Failure? ==> t == Step(s, Invalid(Validate(body).error))
    ensures Validate(body).Success? && fault.Some? ==>
      t == Step(s, Response(500, Failed("Error updating contact", fault.value)))
    ensures t.store.nextId == s.nextId
    ensures t.response.status != 200 ==> t.store == s
    ensures Validate(body).Success? && fault.None? ==> (t.response.status == 200 <==> id in s.records)
    ensures Validate(body).Success? && fault.None? && id !in s.records ==> t.response == NotFound
    ensures t.response.status == 200 ==>
      && id in s.records
      && t.response.body.Record?
      && var c := t.response.body.contact;
      && c.id == s.records[id].id
      && c.createdAt == s.records[id].createdAt
      && c.fields == Normalize(body)
      && c.updatedAt == s.clock
      && t.store.records == s.records[id := c]
  {
    match Validate(body)
    case Failure(vs) => Step(s, Invalid(vs))
    case Success(n) =>
      if fault.Some? then Step(s, Response(500, Failed("Error updating contact", fault.value)))
      else if id !in s.records then Step(s, NotFound)
      else
        var c := s.records[id].(fields := n, updatedAt := s.clock);
        Step(s.(records := s.records[id := c], clock := s.clock + 1), Response(200, Record(c)))
  }

  /** `deleteContact`: the record as it was just before removal, or 404. */
  function DeleteContact(s: Store, id: Id, fault: Option<string>): (t: Step)
    ensures fault.Some? ==> t == Step(s, Response(500, Failed("Error deleting contact", fault.value)))
    ensures fault.None? ==> (t.response.status == 200 <==> id in s.records)
    ensures fault.None? && id !in s.records ==> t == Step(s, NotFound)
    ensures t.response.status == 200 ==>
      && id in s.records
      && t.response.body == Removed("Contact deleted successfully", s.records[id])
      && id !in t.store.records
      && t.store.records == s.records - {id}
    ensures t.store.nextId == s.nextId
  {
    if fault.Some? then Step(s, Response(500, Failed("Error deleting contact", fault.value)))
    else if id !in s.records then Step(s, NotFound)
    else Step(s.(records := s.records - {id}), Response(200, Removed("Contact deleted successfully", s.records[id])))
  }
}

=== FILE: contact_schema.dfy ===
/** The server's record schema (backend/models/Contact.js): the setters that
    normalise each field, the validators that run on the normalised value,
    and the list of messages a failing validation reports. */
module ContactSchema {
  import opened Wrappers
  import opened Text
  import opened Patterns
  import opened Domain

  /** The validators of the schema that can fail, one per declared message. */
  datatype Violation =
    | NameRequired | NameTooShort | NameTooLong
    | EmailRequired | EmailInvalid
    | PhoneRequired | PhoneInvalid
    | MessageTooLong

  /** The message text each validator declares. All but the email pattern's
      open with the label of the path they belong to; `MessageTextInjective`
      shows that no two validators share a text. */
  function MessageText(v: Violation): (r: string)
    ensures |r| > 0
    ensures v != EmailInvalid ==> Label(Path(v)) + " " <= r
  {
    match v
    case NameRequired => "Name is required"
    case NameTooShort => "Name must be at least 2 characters"
    case NameTooLong => "Name cannot exceed 50 characters"
    case EmailRequired => "Email is required"
    case EmailInvalid => "Please enter a valid email"
    case PhoneRequired => "Phone is required"
    case PhoneInvalid => "Phone must be 10 digits starting with 6-9"
    case MessageTooLong => "Message cannot exceed 500 characters"
  }

  const NameMinLength := 2
  const NameMaxLength := 50
  const MessageMaxLength := 500

  /** The setter of field `f`: every field is trimmed, the email is also lower-cased. */
  function NormalizeField(f: Field, v: string): (r: string)
    ensures |r| <= |v|
    ensures r == [] <==> AllSpace(v)
  {
    TrimEmptyIff(v);
    if f == Email then Lower(Trim(v)) else Trim(v)
  }

  /** All four setters, as `new Contact(d)` applies them. */
  function Normalize(d: Fields): Fields {
    Fields(NormalizeField(Name, d.name), NormalizeField(Email, d.email),
      NormalizeField(Phone, d.phone), NormalizeField(Message, d.message))
  }

  /** The constraint table of the schema, on already normalised values. */
  predicate Conforms(n: Fields) {
    && NameMinLength <= |n.name| <= NameMaxLength
    && ServerEmail(n.email)
    && PhonePattern(n.phone)
    && |n.message| <= MessageMaxLength
  }

  /** The first failing validator of each path, `required` first: mongoose
      reports at most one error per path. Values are already normalised. */
  function NameError(v: string): (r: Option<Violation>)
    ensures r.None? <==> NameMinLength <= |v| <= NameMaxLength
    ensures r.Some? ==> Path(r.value) == Name
  {
    if v == [] then Some(NameRequired)
    else if |v| < NameMinLength then Some(NameTooShort)
    else if |v| > NameMaxLength then Some(NameTooLong)
    else None
  }

  function EmailError(v: string): (r: Option<Violation>)
    ensures r.None? <==> ServerEmail(v)
    ensures r.Some? ==> Path(r.value) == Email
  {
    if v == [] then Some(EmailRequired)
    else if !ServerEmail(v) then Some(EmailInvalid)
    else None
  }

  function PhoneError(v: string): (r: Option<Violation>)
    ensures r.None? <==> PhonePattern(v)
    ensures r.Some? ==> Path(r.value) == Phone
  {
    if v == [] then Some(PhoneRequired)
    else if !PhonePattern(v) then Some(PhoneInvalid)
    else None
  }

  function MessageError(v: string): (r: Option<Violation>)
    ensures r.None? <==> |v| <= MessageMaxLength
    ensures r.Some? ==> Path(r.value) == Message
  {
    if |v| > MessageMaxLength then Some(MessageTooLong) else None
  }

  function FieldError(f: Field, v: string): Option<Violation> {
    match f
    case Name => NameError(v)
    case Email => EmailError(v)
    case Phone => PhoneError(v)
    case Message => MessageError(v)
  }

  /** A record the schema stores unchanged: every field is its own setter
      image and passes its validators. */
  predicate Stored(n: Fields) {
    forall f: Field :: NormalizeField(f, n.Get(f)) == n.Get(f) && FieldError(f, n.Get(f)).None?
  }

  function Listed(o: Option<Violation>): seq<Violation> {
    match o
    case Some(m) => [m]
    case None => []
  }

  /** The failing validators of the paths `fs` of a normalised record, path by path. */
  function Collect(n: Fields, fs: seq<Field>): (r: seq<Violation>)
    ensures |r| <= |fs|
  {
    if fs == [] then [] else Listed(FieldError(fs[0], n.Get(fs[0]))) + Collect(n, fs[1..])
  }

  /** The failing validators of a normalised record, in schema declaration order. */
  function Violations(n: Fields): (r: seq<Violation>)
    ensures |r| <= 4
  {
    Collect(n, FieldOrder)
  }

  /** `Object.values(error.errors).map(err => err.message)`: the declared text
      of each violation, in order. */
  function Messages(vs: seq<Violation>): (ms: seq<string>)
    ensures |ms| == |vs|
    ensures forall i | 0 <= i < |vs| :: ms[i] == MessageText(vs[i])
  {
    seq(|vs|, i requires 0 <= i < |vs| => MessageText(vs[i]))
  }

  /** `new Contact(d)` followed by validation: the normalised record, which the
      schema then stores unchanged, or the non-empty list of failed validators. */
  function Validate(d: Fields): (r: Result<Fields, seq<Violation>>)
    ensures r.Success? ==> r.value == Normalize(d) && Stored(r.value)
    ensures r.Failure? ==> 0 < |r.error| <= 4
  {
    var n := Normalize(d);
    var errs := Violations(n);
    if errs == [] then
      NoViolationIsStored(d);
      Success(n)
    else
      Failure(errs)
  }

  /** The failure list holds one entry per failing path, in the order the
      schema declares the paths. */
  lemma {:induction false} ViolationsInOrder(n: Fields)
    ensures Violations(n) ==
      Listed(NameError(n.name)) + Listed(EmailError(n.email))
      + Listed(PhoneError(n.phone)) + Listed(MessageError(n.message))
  {
    var t1: seq<Field>, t2: seq<Field>, t3: seq<Field> := [Email, Phone, Message], [Phone, Message], [Message];
    assert FieldOrder[1..] == t1 && t1[1..] == t2 && t2[1..] == t3 && t3[1..] == [];
    var m := Listed(MessageError(n.message));
    assert Collect(n, t3) == m + [] == m;
    var p := Listed(PhoneError(n.phone));
    assert Collect(n, t2) == p + m;
    var e := Listed(EmailError(n.email));
    assert Collect(n, t1) == e + (p + m);
    var a := Listed(NameError(n.name));
    assert Collect(n, FieldOrder) == a + (e + (p + m));
  }

  /** The path each validator belongs to. */
  function Path(v: Violation): Field {
    match v
    case NameRequired | NameTooShort | NameTooLong => Name
    case EmailRequired | EmailInvalid => Email
    case PhoneRequired | PhoneInvalid => Phone
    case MessageTooLong => Message
  }

  /** The position of a path in the schema declaration. */
  function Rank(f: Field): nat {
    match f
    case Name => 0
    case Email => 1
    case Phone => 2
    case Message => 3
  }

  /** A path only ever reports one of its own validators. */
  lemma FieldErrorOnPath(f: Field, v: string)
    ensures FieldError(f, v).Some? ==> Path(FieldError(f, v).value) == f
  {
  }

  /** Failures listed in strictly increasing path position: at most one per
      path, in declaration order. */
  ghost predicate PathOrdered(vs: seq<Violation>) {
    forall i, j | 0 <= i < j < |vs| :: Rank(Path(vs[i])) < Rank(Path(vs[j]))
  }

  /** Paths listed in strictly increasing declaration position. */
  ghost predicate Ascending(fs: seq<Field>) {
    forall i, j | 0 <= i < j < |fs| :: Rank(fs[i]) < Rank(fs[j])
  }

  /** The failures gathered from ascending paths `fs` belong to those paths,
      at most one per path, in the order of `fs`. */
  lemma {:induction false} CollectRanked(n: Fields, fs: seq<Field>)
    requires Ascending(fs)
    ensures forall i | 0 <= i < |Collect(n, fs)| :: Path(Collect(n, fs)[i]) in fs
    ensures PathOrdered(Collect(n, fs))
  {
    if fs != [] {
      AscendingTail(fs);
      CollectRanked(n, fs[1..]);
      FieldErrorOnPath(fs[0], n.Get(fs[0]));
      var head := Listed(FieldError(fs[0], n.Get(fs[0])));
      var rest := Collect(n, fs[1..]);
      assert Collect(n, fs) == head + rest;
      LaterPaths(fs, rest);
      JoinRanked(head, rest, fs[0]);
      forall i | 0 <= i < |head + rest| ensures Path((head + rest)[i]) in fs {
        if i >= |head| { assert (head + rest)[i] == rest[i - |head|]; }
      }
    }
  }

  lemma AscendingTail(fs: seq<Field>)
    requires Ascending(fs) && fs != []
    ensures Ascending(fs[1..])
    ensures forall f | f in fs[1..] :: Rank(fs[0]) < Rank(f)
  {
    var tail := fs[1..];
    forall i, j | 0 <= i < j < |tail| ensures Rank(tail[i]) < Rank(tail[j]) {
      assert tail[i] == fs[i + 1] && tail[j] == fs[j + 1];
    }
    forall f | f in tail ensures Rank(fs[0]) < Rank(f) {
      var j :| 0 <= j < |tail| && tail[j] == f;
      assert tail[j] == fs[j + 1];
    }
  }

  lemma LaterPaths(fs: seq<Field>, rest: seq<Violation>)
    requires fs != [] && forall f | f in fs[1..] :: Rank(fs[0]) < Rank(f)
    requires forall i | 0 <= i < |rest| :: Path(rest[i]) in fs[1..]
    ensures forall i | 0 <= i < |rest| :: Rank(fs[0]) < Rank(Path(rest[i]))
  {
  }

  /** At most one failure on path `f` followed by failures on later paths,
      each later than the one before, stays strictly ordered by path. */
  lemma JoinRanked(head: seq<Violation>, rest: seq<Violation>, f: Field)
    requires |head| <= 1 && forall i | 0 <= i < |head| :: Path(head[i]) == f
    requires forall i | 0 <= i < |rest| :: Rank(f) < Rank(Path(rest[i]))
    requires PathOrdered(rest)
    ensures PathOrdered(head + rest)
  {
    var r := head + rest;
    forall i, j | 0 <= i < j < |r| ensures Rank(Path(r[i])) < Rank(Path(r[j])) {
      assert r[j] == rest[j - |head|];
      if i >= |head| { assert r[i] == rest[i - |head|]; }
    }
  }

  lemma FieldOrderAscending()
    ensures Ascending(FieldOrder)
  {
    forall i, j | 0 <= i < j < |FieldOrder| ensures Rank(FieldOrder[i]) < Rank(FieldOrder[j]) {
      assert Rank(FieldOrder[i]) == i && Rank(FieldOrder[j]) == j;
    }
  }

  /** The failure list is ordered by path, strictly, so no path appears
      twice; and a validator is listed exactly when its own path reports it. */
  lemma ViolationsByPath(n: Fields)
    ensures PathOrdered(Violations(n))
    ensures forall v :: v in Violations(n) <==> FieldError(Path(v), n.Get(Path(v))) == Some(v)
  {
    FieldOrderAscending();
    CollectRanked(n, FieldOrder);
    forall v ensures v in Violations(n) <==> FieldError(Path(v), n.Get(Path(v))) == Some(v) {
      InViolations(n, v);
    }
  }

  /** Distinct validators declare distinct message texts. */
  lemma MessageTextInjective(a: Violation, b: Violation)
    ensures MessageText(a) == MessageText(b) <==> a == b
  {
    MessageTextMark(a);
    MessageTextMark(b);
    MarkInjective(a, b);
  }

  lemma MarkInjective(a: Violation, b: Violation)
    ensures Mark(a) == Mark(b) ==> a == b
  {
  }

  /** The length and first character of each message text, which already
      tell the eight texts apart. */
  function Mark(v: Violation): (nat, char) {
    match v
    case NameRequired => (16, 'N')
    case NameTooShort => (34, 'N')
    case NameTooLong => (32, 'N')
    case EmailRequired => (17, 'E')
    case EmailInvalid => (26, 'P')
    case PhoneRequired => (17, 'P')
    case PhoneInvalid => (41, 'P')
    case MessageTooLong => (36, 'M')
  }

  lemma MessageTextMark(v: Violation)
    ensures |MessageText(v)| == Mark(v).0 && MessageText(v)[0] == Mark(v).1
  {
  }

  /** The 400 body names a validator's message exactly when it failed. */
  lemma MessagesNameFailures(vs: seq<Violation>, v: Violation)
    ensures MessageText(v) in Messages(vs) <==> v in vs
  {
    if MessageText(v) in Messages(vs) {
      var i :| 0 <= i < |vs| && Messages(vs)[i] == MessageText(v);
      MessageTextInjective(vs[i], v);
    }
    if v in vs {
      var i :| 0 <= i < |vs| && vs[i] == v;
      assert Messages(vs)[i] == MessageText(v);
    }
  }

  /** No validator fails exactly when every path's check passes. */
  lemma NoViolationIff(n: Fields)
    ensures Violations(n) == [] <==> forall f: Field :: FieldError(f, n.Get(f)).None?
  {
    ViolationsInOrder(n);
    assert n.Get(Name) == n.name && n.Get(Email) == n.email;
    assert n.Get(Phone) == n.phone && n.Get(Message) == n.message;
    if Violations(n) == [] {
      forall f: Field ensures FieldError(f, n.Get(f)).None? {
        match f
        case Name =>
        case Email =>
        case Phone =>
        case Message =>
      }
    }
  }

  /** The constraint table holds exactly when no validator fails. */
  lemma ConformsIffNoViolation(n: Fields)
    ensures Conforms(n) <==> Violations(n) == []
  {
    ViolationsInOrder(n);
  }

  /** Re-normalising a normalised field changes nothing. */
  lemma NormalizeFieldIdempotent(f: Field, v: string)
    ensures NormalizeField(f, NormalizeField(f, v)) == NormalizeField(f, v)
  {
    var t := Trim(v);
    TrimIdempotent(v);
    if f == Email {
      var l := Lower(t);
      LowerProperties(t);
      assert l == [] || (!IsSpace(l[0]) && !IsSpace(l[|l| - 1]));
      TrimOfTrimmed(l);
    }
  }

  /** Re-normalising a normalised record changes nothing. */
  lemma NormalizeIdempotent(d: Fields)
    ensures Normalize(Normalize(d)) == Normalize(d)
  {
    NormalizeFieldIdempotent(Name, d.name);
    NormalizeFieldIdempotent(Email, d.email);
    NormalizeFieldIdempotent(Phone, d.phone);
    NormalizeFieldIdempotent(Message, d.message);
  }

  lemma NoViolationIsStored(d: Fields)
    requires Violations(Normalize(d)) == []
    ensures Stored(Normalize(d))
  {
    var n := Normalize(d);
    NoViolationIff(n);
    forall f: Field ensures NormalizeField(f, n.Get(f)) == n.Get(f) {
      NormalizeFieldIdempotent(f, d.Get(f));
    }
  }

  /** Validation accepts exactly the inputs whose normalised form satisfies
      the constraint table; it rejects the others with their failed validators. */
  lemma ValidateAcceptsIff(d: Fields)
    ensures Validate(d).Success? <==> Conforms(Normalize(d))
    ensures Validate(d).Failure? ==> Validate(d).error == Violations(Normalize(d))
  {
    ConformsIffNoViolation(Normalize(d));
  }

  /** A stored record is normalised and satisfies the constraint table. */
  lemma StoredMeans(n: Fields)
    ensures Stored(n) <==> Normalize(n) == n && Conforms(n)
  {
    NoViolationIff(n);
    ConformsIffNoViolation(n);
    if Normalize(n) == n && Conforms(n) {
      forall f: Field ensures NormalizeField(f, n.Get(f)) == n.Get(f) {
      }
    }
    if Stored(n) {
      assert n.Get(Name) == n.name && n.Get(Email) == n.email;
      assert n.Get(Phone) == n.phone && n.Get(Message) == n.message;
    }
  }

  /** Re-validating a stored record passes and leaves every field as it is. */
  lemma StoredRevalidates(n: Fields)
    requires Stored(n)
    ensures Validate(n) == Success(n)
  {
    StoredMeans(n);
    ConformsIffNoViolation(n);
  }

  lemma InListed(o: Option<Violation>, v: Violation)
    ensures v in Listed(o) <==> o == Some(v)
  {
  }

  /** A validator is in the failure list exactly when its path reports it. */
  lemma InViolations(n: Fields, v: Violation)
    ensures v in Violations(n) <==>
      NameError(n.name) == Some(v) || EmailError(n.email) == Some(v)
      || PhoneError(n.phone) == Some(v) || MessageError(n.message) == Some(v)
  {
    ViolationsInOrder(n);
    InListed(NameError(n.name), v);
    InListed(EmailError(n.email), v);
    InListed(PhoneError(n.phone), v);
    InListed(MessageError(n.message), v);
  }

  /** Each name validator is reported exactly when its constraint is broken. */
  lemma NameViolations(n: Fields)
    ensures var errs := Violations(n);
      && (NameRequired in errs <==> n.name == [])
      && (NameTooShort in errs <==> 0 < |n.name| < NameMinLength)
      && (NameTooLong in errs <==> |n.name| > NameMaxLength)
  {
    InViolations(n, NameRequired);
    InViolations(n, NameTooShort);
    InViolations(n, NameTooLong);
  }

  /** Each email validator is reported exactly when its constraint is broken. */
  lemma EmailViolations(n: Fields)
    ensures var errs := Violations(n);
      && (EmailRequired in errs <==> n.email == [])
      && (EmailInvalid in errs <==> n.email != [] && !ServerEmail(n.email))
  {
    InViolations(n, EmailRequired);
    InViolations(n, EmailInvalid);
  }

  /** Each phone validator is reported exactly when its constraint is broken. */
  lemma PhoneViolations(n: Fields)
    ensures var errs := Violations(n);
      && (PhoneRequired in errs <==> n.phone == [])
      && (PhoneInvalid in errs <==> n.phone != [] && !PhonePattern(n.phone))
  {
    InViolations(n, PhoneRequired);
    InViolations(n, PhoneInvalid);
  }

  /** The message-length validator is reported exactly when the message is
      over 500 characters. */
  lemma MessageViolations(n: Fields)
    ensures MessageTooLong in Violations(n) <==> |n.message| > MessageMaxLength
  {
    InViolations(n, MessageTooLong);
  }
}

=== FILE: domain.dfy ===
/** The contact record shared by the server schema and the client form. */
module Domain {

  /** The store-assigned `_id`, opaque to every caller. */
  type Id = nat

  /** The four user-supplied fields, in the order the client form declares them. */
  datatype Field = Name | Email | Phone | Message

  /** The capitalised name of each field, which the schema's messages open with. */
  function Label(f: Field): string {
    match f
    case Name => "Name"
    case Email => "Email"
    case Phone => "Phone"
    case Message => "Message"
  }

  /** The fields in `Object.keys(formData)` order. */
  const FieldOrder: seq<Field> := [Name, Email, Phone, Message]

  lemma FieldOrderComplete(f: Field)
    ensures f in FieldOrder
  {
  }

  /** The four text fields of a contact: the client's `formData`, a request
      body once its fields are known, and the data part of a stored record. */
  datatype Fields = Fields(name: string, email: string, phone: string, message: string) {

    function Get(f: Field): string {
      match f
      case Name => name
      case Email => email
      case Phone => phone
      case Message => message
    }

    /** `{ ...prev, [f]: v }`: only field `f` changes, and it becomes `v`. */
    function Set(f: Field, v: string): (r: Fields)
      ensures r.Get(f) == v
      ensures forall g: Field | g != f :: r.Get(g) == Get(g)
    {
      match f
      case Name => this.(name := v)
      case Email => this.(email := v)
      case Phone => this.(phone := v)
      case Message => this.(message := v)
    }
  }

  /** The four empty strings the form starts from and is reset to. */
  const BlankFields := Fields("", "", "", "")

  /** A stored contact as the server returns it: `_id`, the fields, and the
      two timestamps the schema's `timestamps` option maintains, read on a
      logical clock. */
  datatype Contact = Contact(id: Id, fields: Fields, createdAt: nat, updatedAt: nat)
}

=== FILE: patterns.dfy ===
/** The regular expressions of the contact rules, each written as a predicate
    that decides it, together with the regex-shaped definition it decides.
    Client patterns come from frontend/src/App.jsx:26-30, server patterns from
    backend/models/Contact.js:17 and :23. */
module Patterns {
  import opened Text

  /** `/^[a-zA-Z\s]{2,50}$/`: 2 to 50 characters, each an ASCII letter or whitespace. */
  predicate ClientName(s: string) {
    && 2 <= |s| <= 50
    && forall k | 0 <= k < |s| :: IsAsciiLetter(s[k]) || IsSpace(s[k])
  }

  /** `/^[6-9]\d{9}$/`, the same literal on client and server: ten ASCII
      digits, the first of them 6, 7, 8 or 9. */
  predicate PhonePattern(s: string) {
    && |s| == 10
    && '6' <= s[0] <= '9'
    && forall k | 1 <= k < |s| :: IsDigit(s[k])
  }

  /** `/^[^\s@]+@[^\s@]+\.[^\s@]+$/` decided by a scan: no whitespace, exactly
      one `@`, not in first position, and a `.` strictly inside the domain. */
  predicate ClientEmail(s: string) {
    && NoSpace(s)
    && exists i | 0 < i < |s| ::
         && s[i] == '@'
         && (forall k | 0 <= k < |s| && k != i :: s[k] != '@')
         && (exists j | i + 1 < j < |s| - 1 :: s[j] == '.')
  }

  /** `/^\S+@\S+\.\S+$/` decided by a scan: no whitespace, some `@` not in
      first position, followed later by a `.` that has a character on each side. */
  predicate ServerEmail(s: string) {
    && NoSpace(s)
    && exists i, j | 0 < i && i + 1 < j < |s| - 1 :: s[i] == '@' && s[j] == '.'
  }

  /** The text the `local@domain.tld` shape glues together. */
  function Join(local: string, domain: string, tld: string): string {
    local + "@" + domain + "." + tld
  }

  /** A non-empty run of the class `[^\s@]`. */
  predicate ClientSegment(t: string) {
    |t| > 0 && forall k | 0 <= k < |t| :: !IsSpace(t[k]) && t[k] != '@'
  }

  /** A non-empty run of the class `\S`. */
  predicate ServerSegment(t: string) {
    |t| > 0 && NoSpace(t)
  }

  /** What the client regex means: the string splits into three `[^\s@]+` runs
      around an `@` and a `.`. */
  ghost predicate ClientEmailShape(s: string) {
    exists a, b, c :: s == Join(a, b, c) && ClientSegment(a) && ClientSegment(b) && ClientSegment(c)
  }

  /** What the server regex means: the string splits into three `\S+` runs
      around an `@` and a `.`. */
  ghost predicate ServerEmailShape(s: string) {
    exists a, b, c :: s == Join(a, b, c) && ServerSegment(a) && ServerSegment(b) && ServerSegment(c)
  }

  lemma JoinIndexing(a: string, b: string, c: string)
    ensures |Join(a, b, c)| == |a| + |b| + |c| + 2
    ensures Join(a, b, c)[|a|] == '@' && Join(a, b, c)[|a| + 1 + |b|] == '.'
    ensures forall k | 0 <= k < |a| :: Join(a, b, c)[k] == a[k]
    ensures forall k | 0 <= k < |b| :: Join(a, b, c)[|a| + 1 + k] == b[k]
    ensures forall k | 0 <= k < |c| :: Join(a, b, c)[|a| + |b| + 2 + k] == c[k]
  {
  }

  /** Splitting at an `@` and a later `.` recovers the string. */
  lemma SplitJoins(s: string, i: int, j: int)
    requires 0 <= i && i + 1 <= j < |s| && s[i] == '@' && s[j] == '.'
    ensures s == Join(s[..i], s[i + 1..j], s[j + 1..])
  {
    var a, b, c := s[..i], s[i + 1..j], s[j + 1..];
    JoinIndexing(a, b, c);
    var t := Join(a, b, c);
    assert |t| == |s|;
    forall k | 0 <= k < |s|
      ensures t[k] == s[k]
    {
      if k < i {
        assert t[k] == a[k];
      } else if k == i {
      } else if k < j {
        assert t[|a| + 1 + (k - i - 1)] == b[k - i - 1];
      } else if k == j {
      } else {
        assert t[|a| + |b| + 2 + (k - j - 1)] == c[k - j - 1];
      }
    }
  }

  /** The three slices around an `@` at `i` and a `.` at `j` read back the
      characters of `s`. */
  lemma SliceIndexing(s: string, i: int, j: int)
    requires 0 <= i && i + 1 <= j < |s|
    ensures forall k | 0 <= k < i :: s[..i][k] == s[k]
    ensures forall k | i + 1 <= k < j :: s[i + 1..j][k - i - 1] == s[k]
    ensures forall k | j + 1 <= k < |s| :: s[j + 1..][k - j - 1] == s[k]
  {
  }

  /** A scanned client address splits into three `[^\s@]+` runs. */
  lemma ClientEmailHasShape(s: string)
    requires ClientEmail(s)
    ensures ClientEmailShape(s)
  {
    var i :| 0 < i < |s| && s[i] == '@'
      && (forall k | 0 <= k < |s| && k != i :: s[k] != '@')
      && (exists j | i + 1 < j < |s| - 1 :: s[j] == '.');
    var j :| i + 1 < j < |s| - 1 && s[j] == '.';
    SplitJoins(s, i, j);
    SliceIndexing(s, i, j);
    assert ClientSegment(s[..i]) && ClientSegment(s[i + 1..j]) && ClientSegment(s[j + 1..]);
  }

  /** Three `[^\s@]+` runs joined by `@` and `.` pass the client scan. */
  lemma ClientShapeScans(a: string, b: string, c: string)
    requires ClientSegment(a) && ClientSegment(b) && ClientSegment(c)
    ensures ClientEmail(Join(a, b, c))
  {
    var s := Join(a, b, c);
    JoinIndexing(a, b, c);
    var i, j := |a|, |a| + 1 + |b|;
    forall k | 0 <= k < |s|
      ensures !IsSpace(s[k]) && (k != i ==> s[k] != '@')
    {
      if k < i {
        assert s[k] == a[k];
      } else if i < k < j {
        assert s[|a| + 1 + (k - i - 1)] == b[k - i - 1];
      } else if j < k {
        assert s[|a| + |b| + 2 + (k - j - 1)] == c[k - j - 1];
      }
    }
    assert i + 1 < j < |s| - 1 && s[j] == '.';
  }

  /** The client scan decides exactly the client regex. */
  lemma ClientEmailMeansShape(s: string)
    ensures ClientEmail(s) <==> ClientEmailShape(s)
  {
    if ClientEmail(s) {
      ClientEmailHasShape(s);
    }
    if ClientEmailShape(s) {
      var a, b, c :| s == Join(a, b, c) && ClientSegment(a) && ClientSegment(b) && ClientSegment(c);
      ClientShapeScans(a, b, c);
    }
  }

  /** A scanned server address splits into three `\S+` runs. */
  lemma ServerEmailHasShape(s: string)
    requires ServerEmail(s)
    ensures ServerEmailShape(s)
  {
    var i, j :| 0 < i && i + 1 < j < |s| - 1 && s[i] == '@' && s[j] == '.';
    SplitJoins(s, i, j);
    SliceIndexing(s, i, j);
    assert ServerSegment(s[..i]) && ServerSegment(s[i + 1..j]) && ServerSegment(s[j + 1..]);
  }

  /** Three `\S+` runs joined by `@` and `.` pass the server scan. */
  lemma ServerShapeScans(a: string, b: string, c: string)
    requires ServerSegment(a) && ServerSegment(b) && ServerSegment(c)
    ensures ServerEmail(Join(a, b, c))
  {
    var s := Join(a, b, c);
    JoinIndexing(a, b, c);
    var i, j := |a|, |a| + 1 + |b|;
    forall k | 0 <= k < |s|
      ensures !IsSpace(s[k])
    {
      if k < i {
        assert s[k] == a[k];
      } else if i < k < j {
        assert s[|a| + 1 + (k - i - 1)] == b[k - i - 1];
      } else if j < k {
        assert s[|a| + |b| + 2 + (k - j - 1)] == c[k - j - 1];
      }
    }
    assert s[i] == '@' && s[j] == '.';
  }

  /** The server scan decides exactly the server regex. */
  lemma ServerEmailMeansShape(s: string)
    ensures ServerEmail(s) <==> ServerEmailShape(s)
  {
    if ServerEmail(s) {
      ServerEmailHasShape(s);
    }
    if ServerEmailShape(s) {
      var a, b, c :| s == Join(a, b, c) && ServerSegment(a) && ServerSegment(b) && ServerSegment(c);
      ServerShapeScans(a, b, c);
    }
  }

  /** Every address the client pattern accepts, the server pattern accepts:
      a `[^\s@]` run is in particular a `\S` run. */
  lemma ClientEmailIsServerEmail(s: string)
    requires ClientEmail(s)
    ensures ServerEmail(s)
  {
    ClientEmailMeansShape(s);
    ServerEmailMeansShape(s);
    var a, b, c :| s == Join(a, b, c) && ClientSegment(a) && ClientSegment(b) && ClientSegment(c);
    assert ServerSegment(a) && ServerSegment(b) && ServerSegment(c);
  }
}

=== FILE: scenario_fields.dfy ===
/** The two sample requests used in the worked scenarios, and what the
    schema of backend/models/Contact.js does to each of their fields. */
module ScenarioFields {
  import opened Wrappers
  import opened Text
  import opened Patterns
  import opened Domain
  import opened ContactSchema
  import opened Controllers

  /** The fields of the well-formed request, with the message it leaves out. */
  const Asha := Fields("Asha Rao", "asha@example.com", "9876543210", "")

  /** The request body of the well-formed request: no `message` key. */
  const AshaBody := Payload(Some(Asha.name), Some(Asha.email), Some(Asha.phone), None)

  /** The handler finds name, email and phone present and builds the
      document with an empty message. */
  lemma AshaDraft()
    ensures Truthy(AshaBody.name) && Truthy(AshaBody.email) && Truthy(AshaBody.phone)
    ensures Draft(AshaBody) == Asha
  {
  }

  /** The fields of the request that fails on three fields. */
  const Bad := Fields("A", "bad", "123", "")

  lemma AshaNameNormal()
    ensures NormalizeField(Name, Asha.name) == Asha.name
  {
    AshaNameStored(Asha.name);
  }

  lemma AshaEmailNormal()
    ensures NormalizeField(Email, Asha.email) == Asha.email
  {
    AshaEmailUnchanged(Asha.email);
  }

  lemma AshaPhoneNormal()
    ensures NormalizeField(Phone, Asha.phone) == Asha.phone
  {
    AshaPhoneUnchanged(Asha.phone);
  }

  lemma AshaMessageNormal()
    ensures NormalizeField(Message, Asha.message) == Asha.message
  {
  }

  /** The well-formed request meets every constraint of the schema. */
  lemma AshaConforms()
    ensures Conforms(Asha)
  {
    AshaNameStored(Asha.name);
    AshaEmailMatches(Asha.email);
    AshaPhoneMatches(Asha.phone);
  }

  lemma AshaNameStored(v: string)
    requires v == "Asha Rao"
    ensures Trim(v) == v && NameMinLength <= |v| <= NameMaxLength
  {
    TrimOfTrimmed(v);
  }

  lemma AshaEmailUnchanged(v: string)
    requires v == "asha@example.com"
    ensures Lower(Trim(v)) == v
  {
    assert NoSpace(v);
    TrimOfSpaceFree(v);
    assert forall k | 0 <= k < |v| :: !IsUpper(v[k]);
    LowerOfNoUpper(v);
  }

  lemma AshaEmailMatches(v: string)
    requires v == "asha@example.com"
    ensures ServerEmail(v)
  {
    assert v[4] == '@' && v[12] == '.';
  }

  lemma AshaPhoneUnchanged(v: string)
    requires v == "9876543210"
    ensures Trim(v) == v
  {
    TrimOfTrimmed(v);
  }

  lemma AshaPhoneMatches(v: string)
    requires v == "9876543210"
    ensures PhonePattern(v)
  {
  }

  /** The request body of the failing request: no `message` key. */
  const BadBody := Payload(Some(Bad.name), Some(Bad.email), Some(Bad.phone), None)

  /** The failing request passes the presence check. */
  lemma BadDraft()
    ensures Truthy(BadBody.name) && Truthy(BadBody.email) && Truthy(BadBody.phone)
    ensures Draft(BadBody) == Bad
  {
  }

  /** The name, the email and the phone fail, in that order; the empty
      message passes. */
  lemma BadViolations()
    ensures Violations(Bad) == [NameTooShort, EmailInvalid, PhoneInvalid]
  {
    ViolationsInOrder(Bad);
    assert NameError(Bad.name) == Some(NameTooShort);
    assert EmailError(Bad.email) == Some(EmailInvalid);
    assert PhoneError(Bad.phone) == Some(PhoneInvalid);
    assert MessageError(Bad.message) == None;
  }

  /** The three bad fields need no trimming or lower-casing. */
  lemma BadIsNormal()
    ensures Normalize(Bad) == Bad
  {
    var b := Bad;
    TrimOfTrimmed(b.name);
    TrimOfTrimmed(b.email);
    TrimOfTrimmed(b.phone);
    LowerOfNoUpper(b.email);
  }
}

=== FILE: scenarios.dfy ===
/** Worked requests against backend/controllers/contactControllers.js: a
    well-formed contact without a message, and a request that fails on three
    fields at once. */
module Scenarios {
  import opened Wrappers
  import opened Domain
  import opened ContactSchema
  import opened Controllers
  import opened ScenarioFields

  /** Name, email and phone given, message left out: the record is created
      under the next id with an empty message and the fields as sent. */
  lemma AshaRaoIsCreated(s: Store)
    ensures var t := CreateContact(s, AshaBody, None);
      && t.response.status == 201
      && t.response.body.contact.id == s.nextId
      && t.response.body.contact.fields == Asha
      && t.response.body.contact.fields.message == ""
  {
    AshaDraft();
    AshaIsValid();
    CreatedAsSent(s, AshaBody);
  }

  /** A body whose document the schema accepts unchanged is stored as sent,
      under the next id. */
  lemma CreatedAsSent(s: Store, p: Payload)
    requires Truthy(p.name) && Truthy(p.email) && Truthy(p.phone)
    requires Validate(Draft(p)) == Success(Draft(p))
    ensures var t := CreateContact(s, p, None);
      && t.response.status == 201
      && t.response.body.contact.id == s.nextId
      && t.response.body.contact.fields == Draft(p)
  {
  }

  /** The well-formed request passes the schema unchanged. */
  lemma AshaIsValid()
    ensures Validate(Asha) == Success(Asha)
  {
    AshaIsNormal();
    AshaConforms();
    ValidateAcceptsIff(Asha);
  }

  /** Trimming and lower-casing leave the well-formed request as it is. */
  lemma AshaIsNormal()
    ensures Normalize(Asha) == Asha
  {
    AshaNameNormal();
    AshaEmailNormal();
    AshaPhoneNormal();
    AshaMessageNormal();
  }

  /** A one-letter name, an address without `@` and a three-digit phone: the
      create is refused with one message for each of the three fields, in
      schema order, and the store is left as it was. */
  lemma ThreeFieldsRejected(s: Store)
    ensures CreateContact(s, BadBody, None) == Step(s, Invalid([NameTooShort, EmailInvalid, PhoneInvalid]))
  {
    BadDraft();
    BadIsNormal();
    BadViolations();
    RejectedAsValidated(s, BadBody);
  }

  /** A body that passes the presence check but whose document fails the
      schema is answered with exactly the schema's failures. */
  lemma RejectedAsValidated(s: Store, p: Payload)
    requires Truthy(p.name) && Truthy(p.email) && Truthy(p.phone)
    requires Violations(Normalize(Draft(p))) != []
    ensures CreateContact(s, p, None) == Step(s, Invalid(Violations(Normalize(Draft(p)))))
  {
  }
}

=== FILE: store_laws.dfy ===
/** Properties that relate several handlers of the contact service: the store
    invariant they keep, read-after-write, delete-then-get, and the listing
    order after a run of creations. */
module StoreLaws {
  import opened Wrappers
  import opened Domain
  import opened ContactSchema
  import opened Controllers

  /** The empty store is a valid store. */
  lemma EmptyStoreValid()
    ensures Valid(EmptyStore)
  {
  }

  /** `createContact` keeps the store invariant, adds exactly one record under
      a fresh id and leaves every other record as it was. */
  lemma CreatePreservesValid(s: Store, p: Payload, fault: Option<string>)
    requires Valid(s)
    ensures var t := CreateContact(s, p, fault);
      && Valid(t.store)
      && (t.response.status == 201 ==>
            var c := t.response.body.contact;
            && c.id !in s.records
            && t.store.records.Keys == s.records.Keys + {c.id}
            && |t.store.records| == |s.records| + 1
            && (forall id | id in s.records :: t.store.records[id] == s.records[id]))
  {
    var t := CreateContact(s, p, fault);
    if t.response.status == 201 {
      var c := t.response.body.contact;
      assert Stored(c.fields);
      assert t.store == Store(s.records[c.id := c], s.nextId + 1, s.clock + 1);
      InsertKeepsValid(s, c);
    }
  }

  lemma InsertKeepsValid(s: Store, c: Contact)
    requires Valid(s)
    requires c.id == s.nextId && c.createdAt == c.updatedAt == s.clock && Stored(c.fields)
    ensures Valid(Store(s.records[c.id := c], s.nextId + 1, s.clock + 1))
    ensures c.id !in s.records
    ensures s.records[c.id := c].Keys == s.records.Keys + {c.id}
    ensures |s.records[c.id := c]| == |s.records| + 1
    ensures forall id | id in s.records :: s.records[c.id := c][id] == s.records[id]
  {
    var r := s.records[c.id := c];
    assert c.id !in s.records;
    InsertFacts(s.records, c);
    forall id | id in r ensures r[id].id == id && id < s.nextId + 1 && r[id].createdAt <= r[id].updatedAt < s.clock + 1 {
    }
    forall id | id in r ensures Stored(r[id].fields) {
    }
    forall a, b | a in r && b in r && a != b ensures r[a].createdAt != r[b].createdAt {
      if a != c.id && b != c.id {
        assert r[a] == s.records[a] && r[b] == s.records[b];
      }
    }
  }

  lemma InsertFacts(records: map<Id, Contact>, c: Contact)
    requires c.id !in records
    ensures records[c.id := c].Keys == records.Keys + {c.id}
    ensures |records[c.id := c]| == |records| + 1
  {
  }

  lemma ReplaceKeepsValid(s: Store, id: Id, c: Contact)
    requires Valid(s) && id in s.records
    requires c.id == id && c.createdAt == s.records[id].createdAt && c.updatedAt == s.clock && Stored(c.fields)
    ensures Valid(s.(records := s.records[id := c], clock := s.clock + 1))
  {
  }

  /** `updateContact` keeps the store invariant; a successful update keeps the
      record's id and creation time, moves its `updatedAt` forward, and leaves
      every other record as it was. */
  lemma UpdatePreservesValid(s: Store, id: Id, body: Fields, fault: Option<string>)
    requires Valid(s)
    ensures var t := UpdateContact(s, id, body, fault);
      && Valid(t.store)
      && t.store.records.Keys == s.records.Keys
      && (t.response.status == 200 ==>
            var c := t.response.body.contact;
            && c.id == id
            && c.createdAt == s.records[id].createdAt
            && c.updatedAt > s.records[id].updatedAt
            && (forall k | k in s.records && k != id :: t.store.records[k] == s.records[k]))
  {
    var t := UpdateContact(s, id, body, fault);
    if t.response.status == 200 {
      var c := t.response.body.contact;
      assert Stored(c.fields);
      assert t.store == s.(records := s.records[id := c], clock := s.clock + 1);
      ReplaceKeepsValid(s, id, c);
    }
  }

  /** `deleteContact` keeps the store invariant and removes only the target. */
  lemma DeletePreservesValid(s: Store, id: Id, fault: Option<string>)
    requires Valid(s)
    ensures var t := DeleteContact(s, id, fault);
      && Valid(t.store)
      && (t.response.status == 200 ==>
            && t.store.records.Keys == s.records.Keys - {id}
            && (forall k | k in t.store.records :: t.store.records[k] == s.records[k]))
  {
  }

  /** A create that passes the presence check but fails the schema answers
      400 "Validation error", and its `errors` list names a validator's
      message exactly when that validator failed on its own path. */
  lemma CreateRejectionNamesFailures(s: Store, p: Payload, fault: Option<string>, v: Violation)
    requires Truthy(p.name) && Truthy(p.email) && Truthy(p.phone)
    requires Validate(Draft(p)).Failure?
    ensures var t := CreateContact(s, p, fault);
      && t.store == s
      && t.response.status == 400 && t.response.body.Rejected?
      && t.response.body.message == "Validation error"
      && (MessageText(v) in t.response.body.errors <==>
            FieldError(Path(v), Normalize(Draft(p)).Get(Path(v))) == Some(v))
  {
    var n := Normalize(Draft(p));
    ValidateAcceptsIff(Draft(p));
    ViolationsByPath(n);
    MessagesNameFailures(Violations(n), v);
  }

  /** The same for an update whose body fails the schema, whatever the id. */
  lemma UpdateRejectionNamesFailures(s: Store, id: Id, body: Fields, fault: Option<string>, v: Violation)
    requires Validate(body).Failure?
    ensures var t := UpdateContact(s, id, body, fault);
      && t.store == s
      && t.response.status == 400 && t.response.body.Rejected?
      && t.response.body.message == "Validation error"
      && (MessageText(v) in t.response.body.errors <==>
            FieldError(Path(v), Normalize(body).Get(Path(v))) == Some(v))
  {
    ValidateAcceptsIff(body);
    ViolationsByPath(Normalize(body));
    MessagesNameFailures(Violations(Normalize(body)), v);
  }

  /** Reading a record right after creating it returns it as created,
      server-assigned id and timestamps included. */
  lemma CreateThenGet(s: Store, p: Payload)
    requires Valid(s)
    requires CreateContact(s, p, None).response.status == 201
    ensures var t := CreateContact(s, p, None);
      GetContact(t.store, t.response.body.contact.id, None) == Response(200, Record(t.response.body.contact))
  {
  }

  /** Reading a record right after updating it returns the updated record. */
  lemma UpdateThenGet(s: Store, id: Id, body: Fields)
    requires UpdateContact(s, id, body, None).response.status == 200
    ensures var t := UpdateContact(s, id, body, None);
      GetContact(t.store, id, None) == Response(200, Record(t.response.body.contact))
  {
  }

  /** After a successful delete, reading or deleting the same id again finds
      nothing. */
  lemma DeleteThenGone(s: Store, id: Id)
    requires DeleteContact(s, id, None).response.status == 200
    ensures var t := DeleteContact(s, id, None);
      && GetContact(t.store, id, None) == NotFound
      && DeleteContact(t.store, id, None) == Step(t.store, NotFound)
  {
  }

  /** One request to the service, with the store fault it meets, if any. */
  datatype Request =
    | ListAll(fault: Option<string>)
    | GetOne(id: Id, fault: Option<string>)
    | Create(payload: Payload, fault: Option<string>)
    | Update(id: Id, body: Fields, fault: Option<string>)
    | Delete(id: Id, fault: Option<string>)

  /** The store after one request. Reads leave it as it was; the id counter
      never goes back, and an id below it that holds no record stays empty. */
  function Apply(s: Store, r: Request): (s': Store)
    ensures s'.nextId >= s.nextId
    ensures forall k | k !in s.records && k < s.nextId :: k !in s'.records
    ensures Valid(s) ==> Valid(s')
  {
    match r
    case ListAll(_) => s
    case GetOne(_, _) => s
    case Create(p, fault) =>
      var t := CreateContact(s, p, fault);
      assert Valid(s) ==> Valid(t.store) by {
        if Valid(s) { CreatePreservesValid(s, p, fault); }
      }
      t.store
    case Update(id, body, fault) =>
      var t := UpdateContact(s, id, body, fault);
      assert Valid(s) ==> Valid(t.store) by {
        if Valid(s) { UpdatePreservesValid(s, id, body, fault); }
      }
      t.store
    case Delete(id, fault) =>
      var t := DeleteContact(s, id, fault);
      assert Valid(s) ==> Valid(t.store) by {
        if Valid(s) { DeletePreservesValid(s, id, fault); }
      }
      t.store
  }

  /** The store after a sequence of requests, served one at a time. */
  function Run(s: Store, rs: seq<Request>): (s': Store)
    ensures s'.nextId >= s.nextId
    ensures forall k | k !in s.records && k < s.nextId :: k !in s'.records
    ensures Valid(s) ==> Valid(s')
    decreases |rs|
  {
    if rs == [] then s else Run(Apply(s, rs[0]), rs[1..])
  }

  /** An id freed by a delete never holds a record again, and no create,
      however many requests later, hands it out. */
  lemma DeletedIdNotReissued(s: Store, id: Id, later: seq<Request>, p: Payload, fault: Option<string>)
    requires Valid(s)
    requires DeleteContact(s, id, None).response.status == 200
    ensures id !in Run(DeleteContact(s, id, None).store, later).records
    ensures var t := CreateContact(Run(DeleteContact(s, id, None).store, later), p, fault);
      t.response.status == 201 ==> t.response.body.contact.id != id
  {
    var d := DeleteContact(s, id, None).store;
    assert id !in d.records && id < d.nextId;
  }

  /** Every stored record passes the schema again unchanged, and an update
      that resubmits a record's own fields changes only its `updatedAt`. */
  lemma StoredRecordRevalidates(s: Store, id: Id)
    requires Valid(s) && id in s.records
    ensures Validate(s.records[id].fields) == Success(s.records[id].fields)
    ensures var t := UpdateContact(s, id, s.records[id].fields, None);
      && t.response.status == 200
      && t.store.records[id] == s.records[id].(updatedAt := s.clock)
  {
    StoredRevalidates(s.records[id].fields);
  }

  /** A listing of a valid store starts with the record created at the
      latest instant, lists it only there, and lists every other record
      after it. `CreatedIsNewest` shows that a
      successful creation puts the new record in exactly that position. */
  method LatestIsListedFirst(s: Store, c: Contact) returns (listing: seq<Contact>)
    requires Valid(s) && c.id in s.records && s.records[c.id] == c && c.createdAt + 1 == s.clock
    ensures |listing| == |s.records|
    ensures listing[0] == c
    ensures forall i | 1 <= i < |listing| ::
      listing[i].id != c.id && listing[i].id in s.records && s.records[listing[i].id] == listing[i]
    ensures forall id | id in s.records && id != c.id :: s.records[id] in listing[1..]
  {
    var r := GetAllContacts(s, None);
    listing := r.body.contacts;
    NewestIsFirst(s, listing, c);
  }

  /** A successful creation stores a record newer than every other one, and
      keeps the others as they were. */
  lemma CreatedIsNewest(s: Store, p: Payload)
    requires Valid(s)
    requires CreateContact(s, p, None).response.status == 201
    ensures var t := CreateContact(s, p, None); var c := t.response.body.contact;
      && Valid(t.store)
      && c.id in t.store.records && t.store.records[c.id] == c
      && c.createdAt + 1 == t.store.clock
      && |t.store.records| == |s.records| + 1
      && forall id | id in t.store.records && id != c.id :: id in s.records && t.store.records[id] == s.records[id]
  {
    CreatePreservesValid(s, p, None);
  }

  /** In a strictly newest-first listing of a valid store, a record created at
      the latest instant is listed first and nowhere else. */
  lemma NewestIsFirst(s: Store, listing: seq<Contact>, c: Contact)
    requires Valid(s) && c.id in s.records && s.records[c.id] == c && c.createdAt + 1 == s.clock
    requires |listing| == |s.records|
    requires forall id | id in s.records :: s.records[id] in listing
    requires forall x | x in listing :: x.id in s.records && s.records[x.id] == x
    requires forall i, j | 0 <= i < j < |listing| :: listing[i].createdAt > listing[j].createdAt
    ensures listing[0] == c
    ensures forall i | 1 <= i < |listing| ::
      listing[i].id != c.id && listing[i].id in s.records && s.records[listing[i].id] == listing[i]
  {
    assert listing[0] == c by {
      assert listing[0] in listing;
    }
    forall i | 1 <= i < |listing| ensures
      listing[i].id != c.id && listing[i].id in s.records && s.records[listing[i].id] == listing[i] {
      assert listing[i] in listing;
      assert listing[0].createdAt > listing[i].createdAt;
    }
  }
}

=== FILE: text.dfy ===
/** The character classes and string operations of JavaScript that the
    contact rules use: the `\s` class, `String.prototype.trim`, ASCII letter
    and digit classes, and lower-casing. */
module Text {

  /** A character that JavaScript's `\s` matches and that `trim` removes: the
      ECMAScript WhiteSpace and LineTerminator code points. Below U+00A0 these
      are tab, line feed, vertical tab, form feed, carriage return and space. */
  predicate IsSpace(c: char) {
    if c < '\U{A0}' then c == ' ' || '\t' <= c <= '\r' else IsWideSpace(c)
  }

  /** The non-ASCII whitespace: no-break space, the Unicode space separators,
      the line and paragraph separators, and the byte order mark. */
  predicate IsWideSpace(c: char) {
    || c == '\U{A0}' || c == '\U{1680}' || '\U{2000}' <= c <= '\U{200A}'
    || c == '\U{2028}' || c == '\U{2029}' || c == '\U{202F}' || c == '\U{205F}'
    || c == '\U{3000}' || c == '\U{FEFF}'
  }

  /** The class `[a-zA-Z]`. */
  predicate IsAsciiLetter(c: char) {
    'a' <= c <= 'z' || 'A' <= c <= 'Z'
  }

  /** The class `\d` of a regular expression without the `u` flag. */
  predicate IsDigit(c: char) {
    '0' <= c <= '9'
  }

  predicate IsUpper(c: char) {
    'A' <= c <= 'Z'
  }

  /** Every character of `s` is outside `\s`. */
  predicate NoSpace(s: string) {
    forall k | 0 <= k < |s| :: !IsSpace(s[k])
  }

  /** Every character of `s` is inside `\s` (the empty string included). */
  predicate AllSpace(s: string) {
    forall k | 0 <= k < |s| :: IsSpace(s[k])
  }

  /** `String.prototype.trim`: whitespace is stripped from both ends until
      neither end is whitespace. */
  function Trim(s: string): (r: string)
    ensures |r| <= |s|
    ensures r == [] || (!IsSpace(r[0]) && !IsSpace(r[|r| - 1]))
    decreases |s|
  {
    if |s| > 0 && IsSpace(s[0]) then Trim(s[1..])
    else if |s| > 0 && IsSpace(s[|s| - 1]) then Trim(s[..|s| - 1])
    else s
  }

  /** Where the trimmed slice lies inside `s`. */
  lemma {:induction false} TrimBounds(s: string) returns (i: nat, j: nat)
    ensures i <= j <= |s| && Trim(s) == s[i..j]
    ensures forall k | 0 <= k < i :: IsSpace(s[k])
    ensures forall k | j <= k < |s| :: IsSpace(s[k])
    decreases |s|
  {
    if |s| > 0 && IsSpace(s[0]) {
      var i', j' := TrimBounds(s[1..]);
      i, j := i' + 1, j' + 1;
      ShiftBounds(s, i', j');
    } else if |s| > 0 && IsSpace(s[|s| - 1]) {
      i, j := TrimBounds(s[..|s| - 1]);
      KeepBounds(s, s[..|s| - 1], i, j);
    } else {
      i, j := 0, |s|;
    }
  }

  /** Bounds found in `s[1..]` move one place right in `s`. */
  lemma ShiftBounds(s: string, i: nat, j: nat)
    requires 0 < |s| && IsSpace(s[0]) && i <= j <= |s| - 1
    requires forall k | 0 <= k < i :: IsSpace(s[1..][k])
    requires forall k | j <= k < |s| - 1 :: IsSpace(s[1..][k])
    ensures s[1..][i..j] == s[i + 1..j + 1]
    ensures forall k | 0 <= k < i + 1 :: IsSpace(s[k])
    ensures forall k | j + 1 <= k < |s| :: IsSpace(s[k])
  {
    forall k | 1 <= k < |s| ensures s[k] == s[1..][k - 1] {
    }
  }

  /** Bounds found in `s[..|s| - 1]` stay put in `s`. */
  lemma KeepBounds(s: string, t: string, i: nat, j: nat)
    requires 0 < |s| && IsSpace(s[|s| - 1]) && t == s[..|s| - 1] && i <= j <= |t|
    requires forall k | 0 <= k < i :: IsSpace(t[k])
    requires forall k | j <= k < |t| :: IsSpace(t[k])
    ensures t[i..j] == s[i..j]
    ensures forall k | 0 <= k < i :: IsSpace(s[k])
    ensures forall k | j <= k < |s| :: IsSpace(s[k])
  {
    forall k | 0 <= k < |t| ensures s[k] == t[k] {
    }
  }

  /** Trimming keeps a contiguous slice of `s` and drops whitespace only. */
  lemma TrimIsSlice(s: string)
    ensures exists i, j | 0 <= i <= j <= |s| :: Trim(s) == s[i..j] && AllSpace(s[..i]) && AllSpace(s[j..])
  {
    var i, j := TrimBounds(s);
    assert AllSpace(s[..i]) && AllSpace(s[j..]);
  }

  /** Trimming yields the empty string exactly for whitespace-only input. */
  lemma {:induction false} TrimEmptyIff(s: string)
    ensures Trim(s) == [] <==> AllSpace(s)
    decreases |s|
  {
    if |s| > 0 && IsSpace(s[0]) {
      TrimEmptyIff(s[1..]);
      assert AllSpace(s) <==> AllSpace(s[1..]) by {
        assert forall k | 1 <= k < |s| :: s[k] == s[1..][k - 1];
      }
    } else if |s| > 0 && IsSpace(s[|s| - 1]) {
      TrimEmptyIff(s[..|s| - 1]);
    }
  }

  /** A string that neither begins nor ends with whitespace is its own trim. */
  lemma TrimOfTrimmed(s: string)
    requires s == [] || (!IsSpace(s[0]) && !IsSpace(s[|s| - 1]))
    ensures Trim(s) == s
  {
  }

  /** Trimming twice is trimming once. */
  lemma TrimIdempotent(s: string)
    ensures Trim(Trim(s)) == Trim(s)
  {
    TrimOfTrimmed(Trim(s));
  }

  /** A string without any whitespace is unchanged by trimming. */
  lemma TrimOfSpaceFree(s: string)
    requires NoSpace(s)
    ensures Trim(s) == s
  {
    TrimOfTrimmed(s);
  }

  /** Lower-cases one ASCII capital; every other character is kept. */
  function LowerChar(c: char): (d: char)
    ensures !IsUpper(d)
    ensures IsUpper(c) || d == c
    ensures IsSpace(d) <==> IsSpace(c)
  {
    if IsUpper(c) then (c as int + 32) as char else c
  }

  /** `toLowerCase` restricted to ASCII, character by character. */
  function Lower(s: string): (r: string)
    ensures |r| == |s|
    ensures forall k {:trigger r[k]} | 0 <= k < |s| :: r[k] == LowerChar(s[k])
  {
    if s == [] then [] else [LowerChar(s[0])] + Lower(s[1..])
  }

  /** Lower-casing leaves no capital letter, changes nothing but capitals,
      keeps the whitespace pattern of a string, and is idempotent. */
  lemma LowerProperties(s: string)
    ensures forall k | 0 <= k < |s| :: !IsUpper(Lower(s)[k]) && (IsUpper(s[k]) || Lower(s)[k] == s[k])
    ensures forall k | 0 <= k < |s| :: IsSpace(Lower(s)[k]) <==> IsSpace(s[k])
    ensures Lower(Lower(s)) == Lower(s)
  {
  }

  /** A string without capitals is its own lower-case form. */
  lemma LowerOfNoUpper(s: string)
    requires forall k | 0 <= k < |s| :: !IsUpper(s[k])
    ensures Lower(s) == s
  {
  }
}

=== FILE: wrappers.dfy ===
/** Failure-carrying datatypes used across the model. */
module Wrappers {

  /** A value that may be absent: an undefined request field, a store fault that did not happen. */
  datatype Option<+T> = None | Some(value: T)

  /** The outcome of a check that either yields a value or a failure description. */
  datatype Result<+T, +E> = Success(value: T) | Failure(error: E)
}
